=== FILE: README.md ===
# x/dex interchange: matching engine and cross-chain settlement in Dafny

This project models the core of the `x/dex` module of the interchange
exchange, a Cosmos SDK module in Go. The exchange matches buy and sell
orders for a pair of denominations, and each trade's two legs sit on two
chains joined by an IBC channel. The model covers four parts.

- **The matching engine.** It works on a resting book held as a
  `seq<Order>` whose top is the last element.
  - `LiquidateFromSellOrder` (module `BuyBook`) and `LiquidateFromBuyOrder`
    (module `SellBook`) each perform one matching step against the top.
  - `FillSellOrder` and `FillBuyOrder` repeat that step until the order is
    filled or the top no longer accepts its price.
  - Amounts, prices, gains and ids are Go `int32`. Every `+`, `-` and `*` is
    written as the exact operation followed by `Wrap32`, which is
    two's-complement wrap-around (module `Int32`).
- **Custody** (module `Mint`, over the abstract bank of module `Bank`).
  - `SafeBurn` burns an `ibc/` voucher and locks a native asset in the
    escrow account of the (port, channel).
  - `SafeMint` mints a voucher and unlocks a native asset from that escrow.
  - The bank is a map from (account, denomination) to a balance, plus a
    supply per denomination.
- **The denom resolver** (module `DenomResolver`). It provides
  `VoucherDenom`, `SaveVoucherDenom` and `OriginalDenom` over the store of
  denom traces.
- **The keeper's handlers.** They are pure functions from a state to an
  `Outcome`, and the state is the books, the denom traces and the bank.
  - The packet handlers are receive, acknowledgement and timeout, for sell
    orders (module `SellOrder`) and for buy orders (module `BuyOrder`).
  - The transaction handlers are `SendSellOrder` and `SendBuyOrder` (up to
    building the packet), `CancelBuyOrder` and `CancelSellOrder` (module
    `MsgServer`).
  - Module `Settlement` follows a packet from its send handler to its
    acknowledgement or timeout.

An `Outcome` is one of three results:
- `Ok(state, value)`;
- `Fail(state, error)`, where the state is the one reached when the error
  was returned, because the keeper undoes nothing itself;
- `Panic(reason)`, for the places where the Go code panics.

The collaborators the keeper calls but whose code is not part of this model
are fields of the `Host` datatype. They are left uninterpreted:
- the module account and the escrow address of a (port, channel);
- denomination validity for `sdk.NewCoin`, and the SHA-256 inside the IBC
  denomination;
- bech32 address decoding and the packets' `ValidateBasic`;
- `OrderBookIndex`;
- the position where `appendOrder` inserts an order.

Where the Go code departs from the behaviour the module is designed to
have, the model follows the code:
- The receive of a sell order pays each bidder the fragment's **amount** of
  the sold asset, where the design pays amount × price of the quote asset.
- A timeout does nothing, where the design refunds as an error
  acknowledgement does; the handler's logic is still to be written.
- A cancellation removes the order and stores the book before it decodes
  the creator's address and refunds. Without host rollback, a refund that
  fails leaves the order removed, where the design has the removal and the
  refund happen together or not at all.
- The buy side is not the mirror of the sell side:
  - `SendBuyOrder` locks the order's amount of the amount denomination;
  - the receive pays sellers in the resolution of the amount denomination;
  - a result acknowledgement only decodes the acknowledgement.

## Model

| member | source | states |
|---|---|---|
| Books.GetOrderFromId | x/dex/keeper/msg_server_cancel_buy_order.go:24-27 | The order returned is in the book and carries the requested id; there is no order exactly when no order in the book has that id. |
| Books.RemoveOrderFromId | x/dex/keeper/msg_server_cancel_buy_order.go:34-36 | Removal fails exactly when no order has the id; otherwise one order carrying the id is cut out, the rest keep their order and the id counter is unchanged. |
| Books.RemoveDeletesExactlyThatId | x/dex/keeper/msg_server_cancel_sell_order.go:34-36 | With unique ids, after the removal no order has the id, every other order is still there, and nothing new appeared. |
| Books.AppendOrder | x/dex/types/buy_order_book.go:12-14 | Appending is refused exactly when the amount or the price is not positive. Otherwise the book gains exactly the order (next id, creator, amount, price) and the id counter advances by one, in 32 bits. |
| BuyBook.LiquidateFromSellOrder | x/dex/types/buy_order_book.go:54-99 | No match exactly when the book is empty or the sell price is above the highest bid, and then nothing changes. A full fill leaves 0 to sell, takes the order's amount at the bid's price and reduces the top, popping it at 0. A partial step takes the whole top and leaves the difference to sell. Only the last element is touched. |
| BuyBook.FillSellOrderShape | x/dex/types/buy_order_book.go:37-46 | The loop stops at a bid too low for the order (or an empty book), having consumed every reached bid whole, or it fills the order, and then only the last bid reached may survive, reduced by the units taken; fragments are at most the book's length. |
| BuyBook.FillSellOrderTakesFromTop | x/dex/types/buy_order_book.go:70-96 | Fragment i comes from the i-th bid from the top (same id, creator, price, no more units), each at a price at least the seller's; the incoming order keeps its id, creator and price. |
| BuyBook.FillSellOrderGain | x/dex/types/buy_order_book.go:38-39 | The accumulated gain is the 32-bit wrap of the exact sum over fragments of amount × price. |
| BuyBook.FillSellOrderConserves | x/dex/types/buy_order_book.go:78-97 | For a positive order against live bids, the remainder plus the fragments' amounts is the order's amount, the remainder is between 0 and the amount, filled holds exactly when nothing remains, and all orders left or liquidated are live. |
| BuyBook.FillSellOrderMeaning | x/dex/types/buy_order_book.go:17-50 | `FillSellOrder` as a whole: the gain is the wrapped value of the fragments, they are taken from the top at acceptable prices, the loop stops as described, and units are conserved for a positive order against live bids. |
| BuyBook.FillSellOrderExample | x/dex/types/buy_order_book.go:28-49 | Bids 5@10 under 3@12 against a sell of 6 at 9 give 3@12 then 3@10, gain 66, filled, with 2@10 left. |
| SellBook.LiquidateFromBuyOrder | x/dex/types/sell_order_book.go:54-99 | No match exactly when the book is empty or the buy price is below the lowest ask, and then nothing changes. A full fill leaves 0 to buy with purchase = the order's amount (no price factor) and reduces the top, popping it at 0. A partial step takes the whole top with purchase = its amount. Only the last element is touched. |
| SellBook.FillBuyOrderShape | x/dex/types/sell_order_book.go:37-46 | The loop stops at an ask too dear for the order (or an empty book) having consumed every reached ask whole, or fills the order with only the last ask reached possibly surviving, reduced. |
| SellBook.FillBuyOrderTakesFromTop | x/dex/types/sell_order_book.go:70-96 | Fragment i comes from the i-th ask from the top (same id, creator, price, no more units), each at a price at most the buyer's. |
| SellBook.FillBuyOrderPurchase | x/dex/types/sell_order_book.go:38-39 | The total purchase is the 32-bit wrap of the sum of the fragments' amounts. |
| SellBook.FillBuyOrderConserves | x/dex/types/sell_order_book.go:78-97 | For a positive order against live asks, the remainder plus the fragments' amounts is the order's amount, with the remainder between 0 and the amount and filled exactly when nothing remains. |
| SellBook.FillBuyOrderMeaning | x/dex/types/sell_order_book.go:17-50 | `FillBuyOrder` as a whole; for a positive order against live asks the purchase is exactly the sum of fragment amounts and purchase plus remainder is the order's amount. |
| SellBook.FillBuyOrderExample | x/dex/types/sell_order_book.go:28-49 | Asks 4@11 under 2@10 against a buy of 5 at 11 take 2@10 then 3@11, purchase 5, filled. |
| Bank.SendCoins | x/dex/types/expected_keepers.go:17 | A transfer fails, changing nothing, exactly when the sender holds less than the coin; otherwise the coin moves from sender to receiver and the supply is unchanged. |
| Bank.BurnCoins | x/dex/types/expected_keepers.go:23 | Burning fails exactly when the module account holds less; otherwise its balance and the supply drop by the coin. |
| Bank.MintCoins | x/dex/types/expected_keepers.go:25 | Minting always succeeds and raises the module account's balance and the supply by the coin. |
| Mint.IsIBCToken | x/dex/keeper/mint.go:15-18 | A denomination is a voucher exactly when it starts with "ibc/". |
| Mint.NewCoin | x/dex/keeper/mint.go:24 | A coin is built exactly when the denomination is valid and the amount non-negative, and then carries that denomination and amount; otherwise the SDK panics. |
| Mint.SafeBurn | x/dex/keeper/mint.go:21-35 | Panics exactly on an invalid denomination or negative amount; fails with no change exactly when the sender holds less than the amount; otherwise a voucher is burned from the sender (supply drops) and a native coin is moved into the channel's escrow (supply unchanged), nothing else changing. |
| Mint.BurnTokens | x/dex/keeper/mint.go:38-53 | Never panics; fails with no change exactly when the sender holds less; otherwise the sender's balance and the supply drop by the coin. |
| Mint.LockTokens | x/dex/keeper/mint.go:56-69 | Never panics; fails with no change exactly when the sender holds less; otherwise the coin moves to the channel's escrow. |
| Mint.SafeMint | x/dex/keeper/mint.go:73-94 | Panics exactly on an invalid denomination or negative amount; fails with no change exactly when a native coin's escrow holds less than the amount; otherwise a voucher is minted to the receiver or a native coin is moved out of the escrow. |
| Mint.MintTokens | x/dex/keeper/mint.go:97-109 | Always succeeds: the receiver's balance and the supply rise by the coin. |
| Mint.UnlockTokens | x/dex/keeper/mint.go:112-125 | Never panics; fails with no change exactly when the escrow holds less; otherwise the coin moves from the escrow to the receiver. |
| Mint.SafeBurnThenSafeMintRestores | x/dex/keeper/mint.go:21-94 | A successful `SafeBurn` followed by `SafeMint` of the same coin for the same account on the same channel succeeds and restores every balance and the supply. |
| Mint.SafeBurnLeavesOtherEscrows | x/dex/keeper/mint.go:27-31 | With escrow addresses distinct per channel, a burn on one channel leaves every other channel's escrow balances alone. |
| DenomResolver.VoucherDenom | x/dex/keeper/denom.go:28-39 | The voucher is the 16-character prefix of the IBC denomination of port/channel/denom, so it starts with "ibc/". |
| DenomResolver.SaveVoucherDenom | x/dex/keeper/denom.go:11-25 | The voucher key is present afterwards, no other key is added, no existing trace is overwritten, and a fresh key receives {voucher, port, channel, denom}. |
| DenomResolver.OriginalDenom | x/dex/keeper/denom.go:42-54 | Resolves exactly when a trace exists under the voucher with the same port and channel, giving its origin; otherwise gives "" and false. |
| DenomResolver.PayDenom | x/dex/keeper/sell_order.go:185-189 | The payout denomination is the trace's origin when the denomination resolves through the channel, and otherwise the voucher of the denomination across the given (port, channel), a 16-character `ibc/` denomination. |
| DenomResolver.SaveVoucherDenomIdempotent | x/dex/keeper/denom.go:15-24 | Saving the same voucher twice is saving it once. |
| DenomResolver.SaveThenResolve | x/dex/keeper/denom.go:42-54 | After saving a fresh voucher, it resolves back to the denomination through that (port, channel) and through no other. |
| Keeper.MintTo | x/dex/keeper/sell_order.go:136-149 | Decoding the receiver then `SafeMint`: an undecodable receiver fails with no change; success exactly when the denomination is valid, the amount non-negative and the escrow covers a native coin; then only the bank changes and the receiver is credited. |
| Keeper.PayAll | x/dex/keeper/sell_order.go:106-122 | The payout loop: success implies every receiver decoded and, when anything is paid, that the denomination is valid; failure is an undecodable receiver or a short escrow; no payments change nothing. |
| Keeper.PayAllPaysEveryone | x/dex/keeper/buy_order.go:103-120 | With decodable receivers, non-negative amounts, a valid denomination and an escrow covering the total (or a voucher), the loop succeeds and each account gains exactly what it is paid, the escrow loses the total (native) or the supply rises by it (voucher). |
| Keeper.PayAllOkPaidOut | x/dex/keeper/sell_order.go:106-122 | Conversely, whenever the loop runs to the end, each account gained exactly what it was paid and the escrow lost the total (native) or the supply rose by it (voucher). |
| SellOrder.SellPaymentsPayEachBidder | x/dex/keeper/sell_order.go:106-121 | The payout list has one payment per fragment, in liquidation order, paying the bid's creator the fragment's amount; the payments add up to the units sold. |
| SellOrder.SellPayments | x/dex/keeper/sell_order.go:106-121 | One payment per liquidated fragment, in liquidation order: payment i pays fragment i's creator its amount. |
| SellOrder.ReceiveSellOrder | x/dex/keeper/sell_order.go:71-128 | An invalid payload fails with no change; a missing buy book fails with no change; a failure leaves the buy books as they were; sell books and traces never change; a success acknowledges the remainder and gain of the fill against the pair's buy book, stores the book the fill left, and has paid every bidder its fragment in a valid denomination. |
| SellOrder.OnRecvSellOrderPacket | x/dex/keeper/sell_order.go:71-128 | The handler as written: the failures and the success of `ReceiveSellOrder`, with the bidders paid in the denomination `OriginalDenom` gives; under an invalid "" denomination, a success that liquidated anything implies the sold asset resolved through the source channel. |
| SellOrder.OnRecvSellOrderPacketResolved | x/dex/keeper/sell_order.go:96-102 | The corrected handler: the same failures and success, with the bidders paid in the original denomination or else the voucher on the source channel. |
| SellOrder.SellPaymentsPayable | x/dex/keeper/sell_order.go:87-90 | Against live bids with decodable creators, every payment is payable, the total is between 0 and the order's amount, and remainder plus total is the amount. |
| SellOrder.RecvSellSettles | x/dex/keeper/sell_order.go:87-125 | A valid sell order against a live book, paid in a valid denomination the escrow covers: the receive succeeds, the acknowledgement carries the remainder and the wrapped gain of the fill, every bidder is paid its fragment, and the pair's book becomes what the fill left. |
| SellOrder.RecvSellUnresolvedDenomPanics | x/dex/keeper/sell_order.go:98-102 | As written, when the sold asset does not resolve through the channel and one bid matches, the receive panics (the bidder is paid in ""). |
| SellOrder.RecvSellResolvedAgrees | x/dex/keeper/sell_order.go:98-102 | When the sold asset resolves, the as-written receive and the corrected one are the same. |
| SellOrder.RecvSellResolvedSettles | x/dex/keeper/sell_order.go:98-122 | Paying in the voucher when the asset does not resolve: a valid sell order of positive amount against a live buy book whose bidders all decode is received and every bidder is paid, provided the payout denomination is valid and, when it is native, the destination escrow holds the order's amount of it. |
| SellOrder.RefundSeller | x/dex/keeper/sell_order.go:134-150 | The error acknowledgement: an undecodable seller fails with no change; success exactly when the coin is valid and credit is possible; then only the bank changes and the seller is credited the order's amount of the amount denomination on the source channel. |
| SellOrder.GainDenom | x/dex/keeper/sell_order.go:185-189 | The gain is paid in the price denomination's origin when it resolves through the source channel, and otherwise in its voucher across the destination channel. |
| SellOrder.PayGain | x/dex/keeper/sell_order.go:180-194 | No gain succeeds with no change; an undecodable seller of a positive gain fails with no change; success exactly when the gain is payable (decodable seller, valid `GainDenom`, escrow covering a native gain); then only the bank changes and the gain is credited to the seller, on the source channel, in `GainDenom`. |
| SellOrder.SettleSellAck | x/dex/keeper/sell_order.go:158-196 | A missing sell book panics; success exactly when the book exists, a positive remainder comes with a positive price, and the gain is payable; a positive remainder with a non-positive price fails with no change; whenever the remainder could be appended, it rests as (next id, seller, remainder, price) in the pair's book with other books untouched, even when the gain payout then fails; a failure leaves the bank alone; no remainder leaves the books alone; on success a positive gain is credited and no gain leaves the bank alone. |
| SellOrder.OnAcknowledgementSellOrderPacket | x/dex/keeper/sell_order.go:132-201 | An error acknowledgement fails with no change on an undecodable seller, succeeds exactly when the coin is valid and the credit possible, and then credits the seller the order's amount; a result acknowledgement has `SettleSellAck`'s success condition, rests the remainder whenever it could be appended, panics without the sell book, and on success credits a positive gain in `GainDenom`; buy books and traces never change. |
| SellOrder.OnTimeoutSellOrderPacket | x/dex/keeper/sell_order.go:204-209 | A timeout succeeds and changes nothing. |
| BuyOrder.BuyPaymentsPayEachSeller | x/dex/keeper/buy_order.go:103-120 | The payout list has one payment per fragment in liquidation order, paying the ask's creator amount × price in 32 bits; when no value overflows the payments add up to the exact value bought. |
| BuyOrder.BuyPayments | x/dex/keeper/buy_order.go:103-120 | One payment per liquidated fragment, in liquidation order: payment i pays fragment i's creator its amount × price, in 32 bits. |
| BuyOrder.BuyPaymentsPayable | x/dex/keeper/buy_order.go:85-88 | Against live asks whose values fit in 32 bits, every payment is payable, the total is the exact value bought, and it is at most the order's amount × price. |
| BuyOrder.ProceedsDenom | x/dex/keeper/buy_order.go:96-100 | The sellers are paid in the amount denomination's origin when it resolves through the source channel, and otherwise in its voucher on the source channel. |
| BuyOrder.OnRecvBuyOrderPacket | x/dex/keeper/buy_order.go:71-126 | An invalid payload fails with no change; a missing sell book fails with no change; a failure leaves the sell books as they were; buy books and traces never change; a success acknowledges the remainder and purchase of the fill against the pair's sell book, stores the book the fill left, and has paid every seller its fragment's value in `ProceedsDenom`. |
| BuyOrder.RecvBuySettles | x/dex/keeper/buy_order.go:85-123 | A valid buy order against a live book whose values fit, paid in a valid denomination the escrow covers up to amount × price: the receive succeeds, purchase is the sum of fragment amounts and purchase plus remainder is the order's amount, every seller is paid its fragment's value, and the book becomes what the fill left. |
| BuyOrder.RefundBuyer | x/dex/keeper/buy_order.go:134-146 | The error acknowledgement as written: an undecodable buyer fails with no change; success exactly when the buyer decodes, the denomination is valid, amount × price (32 bits) is non-negative and the credit is possible; then only the bank changes and the buyer is credited amount × price of the amount denomination on the source channel. |
| BuyOrder.RefundBuyerDebit | x/dex/keeper/buy_order.go:134-146 | The corrected refund: success exactly when the coin is valid and credit is possible, and then the buyer is credited the order's amount, what the send debited. |
| BuyOrder.OnAcknowledgementBuyOrderPacket | x/dex/keeper/buy_order.go:130-160 | A result acknowledgement changes nothing; an error acknowledgement fails with no change on an undecodable buyer, succeeds exactly when `RefundBuyer` can, and then credits the buyer amount × price only. |
| BuyOrder.OnAcknowledgementBuyOrderPacketRefundingDebit | x/dex/keeper/buy_order.go:132-147 | The corrected acknowledgement: a result changes nothing; an error fails with no change on an undecodable buyer, succeeds exactly when the coin is valid and the credit possible, and then credits the buyer the order's amount. |
| BuyOrder.OnTimeoutBuyOrderPacket | x/dex/keeper/buy_order.go:163-168 | A timeout succeeds and changes nothing. |
| MsgServer.TakeIntoCustody | x/dex/keeper/msg_server_sell_order.go:24-42 | An undecodable creator fails with no change; success exactly when the denomination is valid and the creator holds the non-negative amount; then the creator is debited, the books are untouched, and the voucher trace is recorded without disturbing existing traces, resolving back to the denomination when fresh. |
| MsgServer.SendSellOrder | x/dex/keeper/msg_server_sell_order.go:13-50 | A missing local sell book fails with no change; any failure changes nothing; success exactly when custody succeeds, leaving its state; the packet carries the message's order with the creator as seller. |
| MsgServer.SendBuyOrder | x/dex/keeper/msg_server_buy_order.go:13-49 | A missing local buy book fails with no change; success exactly when custody of the order's amount (not its value) succeeds; the packet carries the message's order with the creator as buyer. |
| MsgServer.CancelBuyOrder | x/dex/keeper/msg_server_cancel_buy_order.go:12-56 | A missing book fails with "the pair doesn't exist"; an unknown id fails with no change; a canceller other than the creator fails with `NotCreator` and no change. The cancel succeeds exactly when the caller created the order, the creator's address decodes, the amount denomination is valid, amount × price in 32 bits is non-negative and the escrow covers it for a native asset; on success the book is stored without the order and the creator is credited amount × price of the amount denomination. A failure after the ownership check leaves the bank unchanged and the pair's book stored without the order. |
| MsgServer.CancelSellOrder | x/dex/keeper/msg_server_cancel_sell_order.go:12-56 | A missing book succeeds with no change; an unknown id fails with no change; a canceller other than the creator fails with `NotCreator` and no change. Otherwise the cancel succeeds exactly when the caller created the order, the creator's address decodes, the amount denomination is valid, the amount is non-negative and the escrow covers it for a native asset; on success the order is gone from the stored book and the creator is credited its amount. A failure after the ownership check leaves the bank unchanged and the pair's book stored without the order. |
| MsgServer.CancelBuyRemovesOrder | x/dex/keeper/msg_server_cancel_buy_order.go:34-39 | With well-keyed books and unique ids, after a successful cancel no order with that id remains in the pair's book, every other order remains, and other books are untouched. |
| MsgServer.CancelSellRemovesOrder | x/dex/keeper/msg_server_cancel_sell_order.go:34-39 | The same for a successful sell cancellation of an existing book. |
| Settlement.SendSellThenErrorAckRestores | x/dex/keeper/sell_order.go:140-149 | A sell order sent and answered with an error acknowledgement on the same channel is undone: every balance and the supply are as before, and no book changed. |
| Settlement.SendSellThenTimeoutKeepsCustody | x/dex/keeper/sell_order.go:204-209 | After a timeout the seller is still debited the amount on sale. |
| Settlement.SendBuyThenTimeoutKeepsCustody | x/dex/keeper/buy_order.go:163-168 | After a timeout the buyer is still debited the order's amount. |
| Settlement.SendBuyThenErrorAckRefundsValue | x/dex/keeper/buy_order.go:138-145 | As written, after an error acknowledgement the buyer's balance is the old balance minus the amount plus amount × price (32 bits); for a positive order whose value fits, it is restored exactly when the price is 1; for a voucher, a positive amount and a price above 1 whose value fits, the refund succeeds and leaves the buyer richer than before the send. |
| Settlement.SendBuyThenErrorAckRefundingDebitRestores | x/dex/keeper/msg_server_buy_order.go:30-38 | With the corrected refund, a buy order sent and answered with an error acknowledgement is undone: every balance and the supply are as before. |

## Left out

- Packet transmission (`TransmitSellOrderPacket`, `TransmitBuyOrderPacket`): channel lookup, sequence numbers, capabilities and timeout heights are I/O with other keepers. A send handler ends by returning the packet data it would transmit, and the acknowledgement and timeout handlers take that data and the packet's endpoints as parameters.
- JSON decoding of acknowledgements: "cannot unmarshal acknowledgment" and "invalid acknowledgment format" are not modelled. An acknowledgement is already a decoded `AckError | AckResult`.
- Host rollback of a failed transaction is not modelled. Every handler threads the state exactly as its code writes it, and a `Fail` carries that state.
- Library code is left uninterpreted in `Host`: the SHA-256 behind `IBCDenom`, the escrow address (injective where a lemma needs it), bech32 decoding, `ValidateBasic`, `OrderBookIndex` and the denomination check of `sdk.NewCoin`.
- `appendOrder`, `GetOrderFromID`, `RemoveOrderFromID` and the `Decreasing` ordering are not part of this model's sources. They are given minimal contracts only, and `AppendOrder` inserts at a host-chosen position, so no sort direction is assumed.
- `NewBuyOrderBook` and `NewSellOrderBook`, which provision the books, are outside the core.
- The timeout handlers are modelled as the no-ops they are. Their logic is still to be written in the code, so no refund on timeout is modelled.
- SellOrder.RecvSellSettles: requires the destination escrow to cover the order's amount, which bounds the total paid. The source needs only the total actually paid, which can be less.
- BuyOrder.RecvBuySettles: requires every resting order's amount × price to fit in 32 bits, and the escrow to cover the order's own amount × price. The code multiplies in `int32` without either guarantee. With overflow, `Wrap32` still models the payout, but the sum is no longer exact.

## Findings

| source | as written | input that shows it | evidently intended | confidence | as-written member | corrected member |
|---|---|---|---|---|---|---|
| x/dex/keeper/sell_order.go:98-102 | The voucher computed when the sold asset does not resolve is discarded, so bidders are paid in "" | A sell order of an asset that did not come back through the channel, against a book whose top bid accepts its price: the first payout is `SafeMint` of "", an invalid coin, and the receive panics | `finalAmountDenom` is assigned the voucher, as the buy side and the gain payout do | high (not executed) | SellOrder.RecvSellUnresolvedDenomPanics | SellOrder.RecvSellResolvedSettles |
| x/dex/keeper/buy_order.go:138-145 | The error acknowledgement refunds `Amount*Price` of the amount denomination, but `SendBuyOrder` took only `Amount` of it | amount 10, price 5: the send locks 10, and the error acknowledgement releases 50 to the buyer | The refund gives back what the send took | medium (not executed) | Settlement.SendBuyThenErrorAckRefundsValue | Settlement.SendBuyThenErrorAckRefundingDebitRestores |

=== FILE: bank.dfy ===
/**
  The host chain's bank, as far as the exchange uses it: per-account
  balances and a per-denomination supply, and the keeper primitives the
  module consumes (the `BankKeeper` interface of the module's expected
  keepers). A transfer from an account that holds too little is refused
  without any change.
 */
module Bank {
  import opened Types

  datatype Coin = Coin(denom: Denom, amount: nat)

  datatype Bank = Bank(balances: map<(Account, Denom), nat>, supply: map<Denom, int>)

  function Balance(b: Bank, a: Account, d: Denom): nat {
    if (a, d) in b.balances then b.balances[(a, d)] else 0
  }

  function Supply(b: Bank, d: Denom): int {
    if d in b.supply then b.supply[d] else 0
  }

  /** The part of `coin` that concerns account `a` in denomination `d`, when `who` is the party. */
  function Share(a: Account, d: Denom, who: Account, coin: Coin): nat {
    if a == who && d == coin.denom then coin.amount else 0
  }

  /** `coin` went from `from` to `to`; nothing else changed. */
  ghost predicate Moved(b: Bank, b': Bank, from: Account, to: Account, coin: Coin) {
    && (forall a, d :: Balance(b', a, d) == Balance(b, a, d) - Share(a, d, from, coin) + Share(a, d, to, coin))
    && (forall d :: Supply(b', d) == Supply(b, d))
  }

  /** `coin` left `from` and the supply; nothing else changed. */
  ghost predicate Burned(b: Bank, b': Bank, from: Account, coin: Coin) {
    && (forall a, d :: Balance(b', a, d) == Balance(b, a, d) - Share(a, d, from, coin))
    && (forall d :: Supply(b', d) == Supply(b, d) - (if d == coin.denom then coin.amount else 0))
  }

  /** `coin` was created and given to `to`; nothing else changed. */
  ghost predicate Minted(b: Bank, b': Bank, to: Account, coin: Coin) {
    && (forall a, d :: Balance(b', a, d) == Balance(b, a, d) + Share(a, d, to, coin))
    && (forall d :: Supply(b', d) == Supply(b, d) + (if d == coin.denom then coin.amount else 0))
  }

  /** Every balance and every supply agree. */
  ghost predicate SameHoldings(b: Bank, b': Bank) {
    && (forall a, d :: Balance(b', a, d) == Balance(b, a, d))
    && (forall d :: Supply(b', d) == Supply(b, d))
  }

  function Credit(b: Bank, a: Account, coin: Coin): (r: Bank)
    ensures forall a', d :: Balance(r, a', d) == Balance(b, a', d) + Share(a', d, a, coin)
    ensures r.supply == b.supply
  {
    b.(balances := b.balances[(a, coin.denom) := Balance(b, a, coin.denom) + coin.amount])
  }

  function Debit(b: Bank, a: Account, coin: Coin): (r: Bank)
    requires coin.amount <= Balance(b, a, coin.denom)
    ensures forall a', d :: Balance(r, a', d) == Balance(b, a', d) - Share(a', d, a, coin)
    ensures r.supply == b.supply
  {
    b.(balances := b.balances[(a, coin.denom) := Balance(b, a, coin.denom) - coin.amount])
  }

  /** `SendCoins`: refused when the sender's balance is short. */
  function SendCoins(b: Bank, from: Account, to: Account, coin: Coin): (r: Outcome<Bank, ()>)
    ensures !r.Panic?
    ensures r.Fail? <==> Balance(b, from, coin.denom) < coin.amount
    ensures r.Fail? ==> r.state == b && r.error == InsufficientFunds
    ensures r.Ok? ==> Moved(b, r.state, from, to, coin)
  {
    if Balance(b, from, coin.denom) < coin.amount then Fail(b, InsufficientFunds)
    else Ok(Credit(Debit(b, from, coin), to, coin), ())
  }

  /** `BurnCoins`: destroys coins held by the module account. */
  function BurnCoins(b: Bank, moduleAccount: Account, coin: Coin): (r: Outcome<Bank, ()>)
    ensures !r.Panic?
    ensures r.Fail? <==> Balance(b, moduleAccount, coin.denom) < coin.amount
    ensures r.Fail? ==> r.state == b && r.error == InsufficientFunds
    ensures r.Ok? ==> Burned(b, r.state, moduleAccount, coin)
  {
    if Balance(b, moduleAccount, coin.denom) < coin.amount then Fail(b, InsufficientFunds)
    else
      var b' := Debit(b, moduleAccount, coin);
      Ok(b'.(supply := b'.supply[coin.denom := Supply(b, coin.denom) - coin.amount]), ())
  }

  /** `MintCoins`: creates coins in the module account. */
  function MintCoins(b: Bank, moduleAccount: Account, coin: Coin): (r: Outcome<Bank, ()>)
    ensures r.Ok? && Minted(b, r.state, moduleAccount, coin)
  {
    var b' := Credit(b, moduleAccount, coin);
    Ok(b'.(supply := b'.supply[coin.denom := Supply(b, coin.denom) + coin.amount]), ())
  }
}

=== FILE: buy_order.dfy ===
/**
  The buy-order packet. On the counterparty chain it is matched against the
  sell book of the pair and the sellers are paid (`OnRecvBuyOrderPacket`);
  back on the origin chain an error acknowledgement refunds the buyer, a
  result acknowledgement is only decoded, and a timeout does nothing: its
  logic is still to be written.
 */
module BuyOrder {
  import opened Int32
  import opened Types
  import opened Books
  import opened SellBook
  import opened Bank
  import opened Mint
  import opened DenomResolver
  import opened Keeper

  /** One payment per liquidated ask: its creator receives the fragment's amount times its price, in 32 bits. */
  function BuyPayments(liquidated: seq<Order>): (p: seq<Payment>)
    ensures |p| == |liquidated|
    ensures forall i :: 0 <= i < |p| ==> p[i] == Payment(liquidated[i].creator, Wrap32(liquidated[i].amount * liquidated[i].price))
    decreases |liquidated|
  {
    if |liquidated| == 0 then []
    else [Payment(liquidated[0].creator, Wrap32(liquidated[0].amount * liquidated[0].price))] + BuyPayments(liquidated[1..])
  }

  /** Every order has a non-negative price and a value (amount times price) that fits in an `int32`. */
  ghost predicate ValuesFit(orders: seq<Order>) {
    forall i :: 0 <= i < |orders| ==> 0 <= orders[i].price && 0 <= orders[i].amount * orders[i].price <= MAX
  }

  /**
    Seller i is paid the wrapped value of fragment i; when no value
    overflows, the payments add up to the exact value sold.
   */
  lemma {:induction false} BuyPaymentsPayEachSeller(liquidated: seq<Order>)
    ensures var p := BuyPayments(liquidated);
            && |p| == |liquidated|
            && (forall i :: 0 <= i < |p| ==>
                  p[i] == Payment(liquidated[i].creator, Wrap32(liquidated[i].amount * liquidated[i].price)))
            && (ValuesFit(liquidated) ==> Total(p) == SumValue(liquidated))
    decreases |liquidated|
  {
    if |liquidated| > 0 {
      BuyPaymentsPayEachSeller(liquidated[1..]);
      if ValuesFit(liquidated) {
        assert ValuesFit(liquidated[1..]) by {
          forall i | 0 <= i < |liquidated[1..]|
            ensures 0 <= liquidated[1..][i].price && 0 <= liquidated[1..][i].amount * liquidated[1..][i].price <= MAX
          {
            assert liquidated[1..][i] == liquidated[i + 1];
          }
        }
      }
    }
  }

  lemma MulMonotone(a: int, b: int, p: int)
    requires 0 <= a <= b && 0 <= p
    ensures 0 <= a * p <= b * p
  {
    assert b * p - a * p == (b - a) * p;
  }

  /** Fragments priced at most `limit` are worth at most `limit` per unit. */
  lemma {:induction false} SumValueAtMost(orders: seq<Order>, limit: int)
    requires forall i :: 0 <= i < |orders| ==> 0 <= orders[i].amount && 0 <= orders[i].price <= limit
    ensures 0 <= SumValue(orders) <= limit * SumAmount(orders)
    decreases |orders|
  {
    if |orders| > 0 {
      var o := orders[0];
      var rest := orders[1..];
      assert forall i :: 0 <= i < |rest| ==> rest[i] == orders[i + 1];
      SumValueAtMost(rest, limit);
      MulMonotone(o.price, limit, o.amount);
      assert o.amount * o.price == o.price * o.amount;
      assert limit * SumAmount(orders) == limit * o.amount + limit * SumAmount(rest);
    }
  }

  /**
    Against live asks whose values fit, every seller the fill reaches can
    be paid, the payments add up to the exact value bought, and that value
    is at most what the buy order offered.
   */
  lemma BuyPaymentsPayable(host: Host, orders: seq<Order>, order: Order)
    requires AllPositive(orders) && ValuesFit(orders)
    requires order.amount > 0 && order.price > 0
    requires forall i :: 0 <= i < |orders| ==> host.validAddress(orders[i].creator)
    ensures var fill := FillBuyOrder(orders, order);
            && Payable(host, BuyPayments(fill.liquidated))
            && Total(BuyPayments(fill.liquidated)) == SumValue(fill.liquidated)
            && 0 <= SumValue(fill.liquidated) <= order.amount * order.price
  {
    var fill := FillBuyOrder(orders, order);
    var liquidated := fill.liquidated;
    FillBuyOrderMeaning(orders, order);
    BuyPaymentsPayEachSeller(liquidated);
    forall i | 0 <= i < |liquidated|
      ensures 0 <= liquidated[i].price && 0 <= liquidated[i].amount * liquidated[i].price <= MAX
    {
      var source := orders[|orders| - 1 - i];
      assert SameOrder(liquidated[i], source);
      assert 0 <= source.price && 0 <= source.amount * source.price <= MAX;
      MulMonotone(liquidated[i].amount, source.amount, source.price);
    }
    var payments := BuyPayments(liquidated);
    forall i | 0 <= i < |payments|
      ensures host.validAddress(payments[i].receiver) && payments[i].amount >= 0
    {
      assert payments[i] == Payment(liquidated[i].creator, Wrap32(liquidated[i].amount * liquidated[i].price));
      assert SameOrder(liquidated[i], orders[|orders| - 1 - i]);
    }
    SumValueAtMost(liquidated, order.price);
    MulMonotone(SumAmount(liquidated), order.amount, order.price);
    assert order.price * SumAmount(liquidated) == SumAmount(liquidated) * order.price;
  }

  /**
    The denomination the sellers are paid in: the original of the buy
    order's amount denomination when it came back through the source
    channel, and its voucher on the source channel otherwise.
   */
  function ProceedsDenom(host: Host, s: State, packet: Packet, data: BuyOrderPacketData): (d: Denom)
    ensures OriginalDenom(s.denomTraces, packet.sourcePort, packet.sourceChannel, data.amountDenom).1 ==>
              d == s.denomTraces[data.amountDenom].origin
    ensures !OriginalDenom(s.denomTraces, packet.sourcePort, packet.sourceChannel, data.amountDenom).1 ==>
              d == VoucherDenom(host, packet.sourcePort, packet.sourceChannel, data.amountDenom)
  {
    PayDenom(host, s.denomTraces, packet.sourcePort, packet.sourceChannel,
             packet.sourcePort, packet.sourceChannel, data.amountDenom)
  }

  /**
    A buy order received to the end: the pair's sell book exists, the
    acknowledgement reports the fill of the order against it, the book is
    stored as the fill left it, and every seller reached was paid its
    fragment's value in `ProceedsDenom`.
   */
  ghost predicate BuyReceived(host: Host, s: State, packet: Packet, data: BuyOrderPacketData, s': State, ack: BuyOrderPacketAck) {
    && host.validBuyPacket(data)
    && PairIndex(host, packet, data.amountDenom, data.priceDenom) in s.sellOrderBooks
    && var book := s.sellOrderBooks[PairIndex(host, packet, data.amountDenom, data.priceDenom)];
    && var fill := FillBuyOrder(book.book.orders, Incoming(data.amount, data.price));
    && ack == BuyOrderPacketAck(fill.remaining.amount, fill.purchase)
    && s'.sellOrderBooks == s.sellOrderBooks[book.index := book.(book := book.book.(orders := fill.book))]
    && PaidOut(host, s.bank, s'.bank, packet.destinationPort, packet.destinationChannel,
               ProceedsDenom(host, s, packet, data), BuyPayments(fill.liquidated))
  }

  /**
    `OnRecvBuyOrderPacket`: validate, find the sell book of the pair, fill
    the order against it, pay every liquidated ask its value on the
    destination (port, channel), and store the book once everyone is paid.
   */
  function OnRecvBuyOrderPacket(host: Host, s: State, packet: Packet, data: BuyOrderPacketData): (r: Outcome<State, BuyOrderPacketAck>)
    ensures !host.validBuyPacket(data) ==> r == Fail(s, InvalidPacket)
    ensures host.validBuyPacket(data) && PairIndex(host, packet, data.amountDenom, data.priceDenom) !in s.sellOrderBooks ==>
              r == Fail(s, PairNotFound)
    ensures r.Fail? ==> r.state.sellOrderBooks == s.sellOrderBooks
    ensures !r.Panic? ==> r.state.buyOrderBooks == s.buyOrderBooks && r.state.denomTraces == s.denomTraces
    ensures r.Ok? ==> BuyReceived(host, s, packet, data, r.state, r.value)
  {
    if !host.validBuyPacket(data) then Fail(s, InvalidPacket)
    else
      var index := PairIndex(host, packet, data.amountDenom, data.priceDenom);
      if index !in s.sellOrderBooks then Fail(s, PairNotFound)
      else
        var book := s.sellOrderBooks[index];
        var fill := FillBuyOrder(book.book.orders, Incoming(data.amount, data.price));
        var ack := BuyOrderPacketAck(fill.remaining.amount, fill.purchase);
        match PayAll(host, s.bank, packet.destinationPort, packet.destinationChannel,
                     ProceedsDenom(host, s, packet, data), BuyPayments(fill.liquidated))
        case Ok(b, _) =>
          PayAllOkPaidOut(host, s.bank, packet.destinationPort, packet.destinationChannel,
                          ProceedsDenom(host, s, packet, data), BuyPayments(fill.liquidated));
          Ok(SetSellOrderBook(s.(bank := b), book.(book := book.book.(orders := fill.book))), ack)
        case Fail(b, e) => Fail(s.(bank := b), e)
        case Panic(why) => Panic(why)
  }

  /**
    A valid buy order against a live sell book whose sellers all decode and
    whose values fit, paid in a valid denomination that the destination
    escrow covers up to the order's value (or a voucher): the
    acknowledgement reports the units bought and left (they make the
    order's amount), every seller is paid its fragment's value, and the
    pair's book becomes what the fill left behind.
   */
  lemma RecvBuySettles(host: Host, s: State, packet: Packet, data: BuyOrderPacketData)
    requires host.validBuyPacket(data) && data.amount > 0 && data.price > 0
    requires PairIndex(host, packet, data.amountDenom, data.priceDenom) in s.sellOrderBooks
    requires var orders := s.sellOrderBooks[PairIndex(host, packet, data.amountDenom, data.priceDenom)].book.orders;
             && AllPositive(orders) && ValuesFit(orders)
             && forall i :: 0 <= i < |orders| ==> host.validAddress(orders[i].creator)
    requires var denom := ProceedsDenom(host, s, packet, data);
             && host.validDenom(denom)
             && (IsIBCToken(denom) ||
                 data.amount * data.price <= Balance(s.bank, host.escrowAddress(packet.destinationPort, packet.destinationChannel), denom))
    ensures var book := s.sellOrderBooks[PairIndex(host, packet, data.amountDenom, data.priceDenom)];
            var fill := FillBuyOrder(book.book.orders, Incoming(data.amount, data.price));
            var r := OnRecvBuyOrderPacket(host, s, packet, data);
            && r.Ok?
            && r.value.purchase == SumAmount(fill.liquidated)
            && r.value.remainingAmount + r.value.purchase == data.amount
            && Total(BuyPayments(fill.liquidated)) == SumValue(fill.liquidated)
            && PaidOut(host, s.bank, r.state.bank, packet.destinationPort, packet.destinationChannel,
                       ProceedsDenom(host, s, packet, data), BuyPayments(fill.liquidated))
            && r.state.sellOrderBooks == s.sellOrderBooks[book.index := book.(book := book.book.(orders := fill.book))]
  {
    var book := s.sellOrderBooks[PairIndex(host, packet, data.amountDenom, data.priceDenom)];
    var order := Incoming(data.amount, data.price);
    var fill := FillBuyOrder(book.book.orders, order);
    FillBuyOrderMeaning(book.book.orders, order);
    BuyPaymentsPayable(host, book.book.orders, order);
    PayAllPaysEveryone(host, s.bank, packet.destinationPort, packet.destinationChannel,
                       ProceedsDenom(host, s, packet, data), BuyPayments(fill.liquidated));
  }

  /**
    The error acknowledgement as written: the buyer is credited the order's
    amount times its price (in 32 bits) of the amount denomination on the
    source (port, channel).
   */
  function RefundBuyer(host: Host, s: State, packet: Packet, data: BuyOrderPacketData): (r: Outcome<State, ()>)
    ensures !host.validAddress(data.buyer) ==> r == Fail(s, InvalidAddress)
    ensures r.Fail? ==> r.state == s
    ensures r.Ok? <==> && host.validAddress(data.buyer) && host.validDenom(data.amountDenom) && Wrap32(data.amount * data.price) >= 0
                       && CanCredit(host, s.bank, packet.sourcePort, packet.sourceChannel,
                                    Coin(data.amountDenom, Wrap32(data.amount * data.price) as nat))
    ensures r.Ok? ==> r.state == s.(bank := r.state.bank)
    ensures r.Ok? ==> Wrap32(data.amount * data.price) >= 0
    ensures r.Ok? ==> Credited(host, s.bank, r.state.bank, packet.sourcePort, packet.sourceChannel, data.buyer,
                               Coin(data.amountDenom, Wrap32(data.amount * data.price)))
  {
    MintTo(host, s, packet.sourcePort, packet.sourceChannel, data.buyer, data.amountDenom, Wrap32(data.amount * data.price))
  }

  /** The error acknowledgement giving back exactly what `SendBuyOrder` debited: the order's amount. */
  function RefundBuyerDebit(host: Host, s: State, packet: Packet, data: BuyOrderPacketData): (r: Outcome<State, ()>)
    ensures !host.validAddress(data.buyer) ==> r == Fail(s, InvalidAddress)
    ensures r.Fail? ==> r.state == s
    ensures r.Ok? <==> && host.validAddress(data.buyer) && host.validDenom(data.amountDenom) && data.amount >= 0
                       && CanCredit(host, s.bank, packet.sourcePort, packet.sourceChannel, Coin(data.amountDenom, data.amount as nat))
    ensures r.Ok? ==> r.state == s.(bank := r.state.bank)
    ensures r.Ok? ==> Credited(host, s.bank, r.state.bank, packet.sourcePort, packet.sourceChannel, data.buyer,
                               Coin(data.amountDenom, data.amount))
  {
    MintTo(host, s, packet.sourcePort, packet.sourceChannel, data.buyer, data.amountDenom, data.amount)
  }

  /** `OnAcknowledgementBuyOrderPacket` as written: refund on an error; a result is decoded and changes nothing. */
  function OnAcknowledgementBuyOrderPacket(host: Host, s: State, packet: Packet, data: BuyOrderPacketData,
                                           ack: Acknowledgement<BuyOrderPacketAck>): (r: Outcome<State, ()>)
    ensures ack.AckResult? ==> r.Ok? && r.state == s
    ensures ack.AckError? && !host.validAddress(data.buyer) ==> r == Fail(s, InvalidAddress)
    ensures ack.AckError? && r.Fail? ==> r.state == s
    ensures ack.AckError? ==>
              (r.Ok? <==> && host.validAddress(data.buyer) && host.validDenom(data.amountDenom) && Wrap32(data.amount * data.price) >= 0
                          && CanCredit(host, s.bank, packet.sourcePort, packet.sourceChannel,
                                       Coin(data.amountDenom, Wrap32(data.amount * data.price) as nat)))
    ensures ack.AckError? && r.Ok? ==>
              && r.state == s.(bank := r.state.bank)
              && Wrap32(data.amount * data.price) >= 0
              && Credited(host, s.bank, r.state.bank, packet.sourcePort, packet.sourceChannel, data.buyer,
                          Coin(data.amountDenom, Wrap32(data.amount * data.price)))
  {
    match ack
    case AckError(_) => RefundBuyer(host, s, packet, data)
    case AckResult(_) => Ok(s, ())
  }

  /** `OnAcknowledgementBuyOrderPacket` with the error branch refunding the debit. */
  function OnAcknowledgementBuyOrderPacketRefundingDebit(host: Host, s: State, packet: Packet, data: BuyOrderPacketData,
                                                         ack: Acknowledgement<BuyOrderPacketAck>): (r: Outcome<State, ()>)
    ensures ack.AckResult? ==> r.Ok? && r.state == s
    ensures ack.AckError? && !host.validAddress(data.buyer) ==> r == Fail(s, InvalidAddress)
    ensures ack.AckError? && r.Fail? ==> r.state == s
    ensures ack.AckError? ==>
              (r.Ok? <==> && host.validAddress(data.buyer) && host.validDenom(data.amountDenom) && data.amount >= 0
                          && CanCredit(host, s.bank, packet.sourcePort, packet.sourceChannel, Coin(data.amountDenom, data.amount as nat)))
    ensures ack.AckError? && r.Ok? ==>
              && r.state == s.(bank := r.state.bank)
              && data.amount >= 0
              && Credited(host, s.bank, r.state.bank, packet.sourcePort, packet.sourceChannel, data.buyer,
                          Coin(data.amountDenom, data.amount))
  {
    match ack
    case AckError(_) => RefundBuyerDebit(host, s, packet, data)
    case AckResult(_) => Ok(s, ())
  }

  /** `OnTimeoutBuyOrderPacket` as written: the timeout logic is left to do, so nothing happens. */
  function OnTimeoutBuyOrderPacket(s: State, packet: Packet, data: BuyOrderPacketData): (r: Outcome<State, ()>)
    ensures r.Ok? && r.state == s
  {
    Ok(s, ())
  }
}

=== FILE: buy_order_book.dfy ===
/**
  Matching an incoming sell order against a buy book. The book's top, its
  highest bid, is the last element; one liquidation step consumes (part of)
  that bid, and `FillSellOrder` repeats the step until the sell order is
  filled or no bid accepts its price.
 */
module BuyBook {
  import opened Int32
  import opened Types
  import opened Books

  /** Outcome of one matching step: the updated incoming order, the fragment
      of the resting order it consumed, that fragment's proceeds, and the book after. */
  datatype Liquidation = Liquidation(remaining: Order, liquidated: Order, gain: Int32, matched: bool, filled: bool, book: seq<Order>)

  /** Outcome of the whole fill: fragments in the order they were consumed. */
  datatype Fill = Fill(remaining: Order, liquidated: seq<Order>, gain: Int32, filled: bool, book: seq<Order>)

  /** No bid in the book is willing to pay the sell order's price. */
  predicate NoMatch(orders: seq<Order>, order: Order) {
    |orders| == 0 || order.price > orders[|orders| - 1].price
  }

  /** `LiquidateFromSellOrder`: one matching step against the highest bid. */
  function LiquidateFromSellOrder(orders: seq<Order>, order: Order): (r: Liquidation)
    ensures !r.matched <==> NoMatch(orders, order)
    ensures !r.matched ==> r == Liquidation(order, ZeroOrder, 0, false, false, orders)
    ensures r.matched ==>
      var top := orders[|orders| - 1];
      && SameOrder(r.remaining, order)
      && SameOrder(r.liquidated, top)
      && r.liquidated.price >= order.price
      && r.gain == Wrap32(r.liquidated.amount * r.liquidated.price)
      && (r.filled <==> top.amount >= order.amount)
      && (r.filled ==> && r.remaining.amount == 0
                       && r.liquidated.amount == order.amount
                       && r.book == orders[..|orders| - 1] + LeftOver(top, order.amount))
      && (!r.filled ==> && r.liquidated == top
                        && r.remaining.amount == Wrap32(order.amount - top.amount)
                        && r.book == orders[..|orders| - 1])
  {
    var count := |orders|;
    if count == 0 then Liquidation(order, ZeroOrder, 0, false, false, orders)
    else
      var highestBid := orders[count - 1];
      if order.price > highestBid.price then Liquidation(order, ZeroOrder, 0, false, false, orders)
      else if highestBid.amount >= order.amount then
        var left := Wrap32(highestBid.amount - order.amount);
        var book := if left == 0 then orders[..count - 1] else orders[..count - 1] + [highestBid.(amount := left)];
        Liquidation(order.(amount := 0), highestBid.(amount := order.amount),
                    Wrap32(order.amount * highestBid.price), true, true, book)
      else
        Liquidation(order.(amount := Wrap32(order.amount - highestBid.amount)), highestBid,
                    Wrap32(highestBid.amount * highestBid.price), true, false, orders[..count - 1])
  }

  /**
    The `FillSellOrder` loop, entered with the gain accumulated so far: it
    stops at the first step that does not match or that fills the order.
   */
  function FillSellOrderFrom(orders: seq<Order>, order: Order, totalGain: Int32): (r: Fill)
    decreases |orders|
  {
    var step := LiquidateFromSellOrder(orders, order);
    if !step.matched then Fill(step.remaining, [], totalGain, step.filled, step.book)
    else
      var total := Wrap32(totalGain + step.gain);
      if step.filled then Fill(step.remaining, [step.liquidated], total, true, step.book)
      else
        var rest := FillSellOrderFrom(step.book, step.remaining, total);
        var liquidated := [step.liquidated] + rest.liquidated;
        Fill(rest.remaining, liquidated, rest.gain, rest.filled, rest.book)
  }

  /**
    Where a fill stopped and what it left behind: unless it filled the order
    it stopped at a bid too low for the order (or an empty book), every bid
    it consumed was consumed whole and the book is the untouched rest; when
    it filled the order, only the last bid it reached may survive, reduced by
    the units taken from it.
   */
  ghost predicate StoppedAsDescribed(orders: seq<Order>, r: Fill) {
    && |r.liquidated| <= |orders|
    && (!r.filled ==>
        && WhollyTaken(orders, r.liquidated, |r.liquidated|)
        && r.book == orders[..|orders| - |r.liquidated|]
        && NoMatch(r.book, r.remaining))
    && (r.filled ==>
        && |r.liquidated| > 0
        && r.remaining.amount == 0
        && WhollyTaken(orders, r.liquidated, |r.liquidated| - 1)
        && r.book == orders[..|orders| - |r.liquidated|]
                     + LeftOver(orders[|orders| - |r.liquidated|], r.liquidated[|r.liquidated| - 1].amount))
  }

  lemma {:induction false} FillSellOrderShape(orders: seq<Order>, order: Order, totalGain: Int32)
    ensures StoppedAsDescribed(orders, FillSellOrderFrom(orders, order, totalGain))
    decreases |orders|
  {
    var r := FillSellOrderFrom(orders, order, totalGain);
    var step := LiquidateFromSellOrder(orders, order);
    var n := |orders|;
    if !step.matched {
      assert orders[..n - 0] == orders;
    } else if step.filled {
      assert r.liquidated == [step.liquidated];
      assert r.liquidated[|r.liquidated| - 1].amount == order.amount;
      assert r.book == orders[..n - 1] + LeftOver(orders[n - 1], order.amount);
    } else {
      var total := Wrap32(totalGain + step.gain);
      var rest := FillSellOrderFrom(step.book, step.remaining, total);
      FillSellOrderShape(step.book, step.remaining, total);
      ShapeAfterWholeStep(orders, rest, r);
    }
  }

  /** Prepending a wholly consumed top bid to a fill of the rest of the book keeps the description. */
  lemma ShapeAfterWholeStep(orders: seq<Order>, rest: Fill, r: Fill)
    requires |orders| > 0
    requires StoppedAsDescribed(orders[..|orders| - 1], rest)
    requires r == rest.(liquidated := [orders[|orders| - 1]] + rest.liquidated)
    ensures StoppedAsDescribed(orders, r)
  {
    var n := |orders|;
    var book := orders[..n - 1];
    var k := |r.liquidated|;
    assert book[..|book| - |rest.liquidated|] == orders[..n - k];
    var m := if r.filled then k - 1 else k;
    forall i | 0 <= i < m
      ensures r.liquidated[i] == orders[n - 1 - i]
    {
      if i > 0 {
        assert r.liquidated[i] == rest.liquidated[i - 1];
        assert book[|book| - 1 - (i - 1)] == orders[n - 1 - i];
      }
    }
    if r.filled {
      var last := rest.liquidated[|rest.liquidated| - 1];
      assert r.liquidated[k - 1] == last;
      assert book[|book| - |rest.liquidated|] == orders[n - k];
    }
  }

  /** `FillSellOrder`: the loop entered with no gain yet. */
  function FillSellOrder(orders: seq<Order>, order: Order): Fill {
    FillSellOrderFrom(orders, order, 0)
  }

  /** One turn of the loop: a step that neither stops nor fills hands over to the fill of the rest. */
  lemma FillSellOrderFromUnfold(orders: seq<Order>, order: Order, totalGain: Int32)
    ensures var r := FillSellOrderFrom(orders, order, totalGain);
            var step := LiquidateFromSellOrder(orders, order);
            var total := Wrap32(totalGain + step.gain);
            && (!step.matched ==> r == Fill(order, [], totalGain, false, orders))
            && (step.matched && step.filled ==> r == Fill(step.remaining, [step.liquidated], total, true, step.book))
            && (step.matched && !step.filled ==>
                  var rest := FillSellOrderFrom(step.book, step.remaining, total);
                  r == Fill(rest.remaining, [step.liquidated] + rest.liquidated, rest.gain, rest.filled, rest.book))
  {
  }

  /**
    The fill works down the book from the top: fragment i was cut from the
    i-th bid counted from the top, every bid it reached paid at least the
    seller's price, and the incoming order keeps its id, creator and price.
   */
  lemma {:induction false} FillSellOrderTakesFromTop(orders: seq<Order>, order: Order, totalGain: Int32)
    ensures var r := FillSellOrderFrom(orders, order, totalGain);
            && SameOrder(r.remaining, order)
            && TakenFromTop(orders, r.liquidated)
            && forall i :: 0 <= i < |r.liquidated| ==> r.liquidated[i].price >= order.price
    decreases |orders|
  {
    var step := LiquidateFromSellOrder(orders, order);
    FillSellOrderFromUnfold(orders, order, totalGain);
    if step.matched && !step.filled {
      var total := Wrap32(totalGain + step.gain);
      FillSellOrderTakesFromTop(step.book, step.remaining, total);
      TakenAfterWholeStep(orders, order, step.remaining, FillSellOrderFrom(step.book, step.remaining, total),
                          FillSellOrderFrom(orders, order, totalGain));
    }
  }

  /** Prepending the wholly consumed top bid to a fill of the rest of the book keeps it taken from the top. */
  lemma TakenAfterWholeStep(orders: seq<Order>, order: Order, remaining: Order, rest: Fill, r: Fill)
    requires |orders| > 0 && orders[|orders| - 1].price >= order.price
    requires SameOrder(remaining, order)
    requires SameOrder(rest.remaining, remaining)
    requires TakenFromTop(orders[..|orders| - 1], rest.liquidated)
    requires forall i :: 0 <= i < |rest.liquidated| ==> rest.liquidated[i].price >= remaining.price
    requires r == Fill(rest.remaining, [orders[|orders| - 1]] + rest.liquidated, rest.gain, rest.filled, rest.book)
    ensures SameOrder(r.remaining, order)
    ensures TakenFromTop(orders, r.liquidated)
    ensures forall i :: 0 <= i < |r.liquidated| ==> r.liquidated[i].price >= order.price
  {
    var n := |orders|;
    forall i | 0 < i < |r.liquidated|
      ensures SameOrder(r.liquidated[i], orders[n - 1 - i]) && r.liquidated[i].amount <= orders[n - 1 - i].amount
      ensures r.liquidated[i].price >= order.price
    {
      assert r.liquidated[i] == rest.liquidated[i - 1];
      assert orders[..n - 1][n - 1 - 1 - (i - 1)] == orders[n - 1 - i];
    }
  }

  /** The accumulated gain is the (wrapped) value of all fragments at their bid prices. */
  lemma {:induction false} FillSellOrderGain(orders: seq<Order>, order: Order, totalGain: Int32)
    ensures var r := FillSellOrderFrom(orders, order, totalGain);
            r.gain == Wrap32(totalGain + SumValue(r.liquidated))
    decreases |orders|
  {
    var step := LiquidateFromSellOrder(orders, order);
    if step.matched && !step.filled {
      var total := Wrap32(totalGain + step.gain);
      FillSellOrderGain(step.book, step.remaining, total);
      GainThroughStep(orders, order, totalGain);
    } else {
      GainAtStop(orders, order, totalGain);
    }
  }

  /** The gain of a fill that stops at its first step. */
  lemma GainAtStop(orders: seq<Order>, order: Order, totalGain: Int32)
    requires var step := LiquidateFromSellOrder(orders, order);
             !step.matched || step.filled
    ensures var r := FillSellOrderFrom(orders, order, totalGain);
            r.gain == Wrap32(totalGain + SumValue(r.liquidated))
  {
    var r := FillSellOrderFrom(orders, order, totalGain);
    var step := LiquidateFromSellOrder(orders, order);
    FillSellOrderFromUnfold(orders, order, totalGain);
    if !step.matched {
      assert SumValue(r.liquidated) == 0;
    } else {
      GainAtLastStep(totalGain, step.gain, step.liquidated, r);
    }
  }

  /** The gain of a fill that goes on after its first step, given that of the rest. */
  lemma GainThroughStep(orders: seq<Order>, order: Order, totalGain: Int32)
    requires var step := LiquidateFromSellOrder(orders, order);
             var total := Wrap32(totalGain + step.gain);
             var rest := FillSellOrderFrom(step.book, step.remaining, total);
             && step.matched && !step.filled
             && rest.gain == Wrap32(total + SumValue(rest.liquidated))
    ensures var r := FillSellOrderFrom(orders, order, totalGain);
            r.gain == Wrap32(totalGain + SumValue(r.liquidated))
  {
    var r := FillSellOrderFrom(orders, order, totalGain);
    var step := LiquidateFromSellOrder(orders, order);
    FillSellOrderFromUnfold(orders, order, totalGain);
    var total := Wrap32(totalGain + step.gain);
    var rest := FillSellOrderFrom(step.book, step.remaining, total);
    GainAfterWholeStep(totalGain, step.gain, total, step.liquidated, r, rest);
  }

  /** The gain of a fill whose one and only step filled the order. */
  lemma GainAtLastStep(totalGain: Int32, gain: Int32, sold: Order, r: Fill)
    requires gain == Wrap32(sold.amount * sold.price)
    requires r.liquidated == [sold]
    requires r.gain == Wrap32(totalGain + gain)
    ensures r.gain == Wrap32(totalGain + SumValue(r.liquidated))
  {
    assert SumValue(r.liquidated) == sold.amount * sold.price + SumValue([]);
    WrapAddRight(totalGain, sold.amount * sold.price);
  }

  /** The gain of a fill that first consumed one bid whole and then went on. */
  lemma GainAfterWholeStep(totalGain: Int32, gain: Int32, total: Int32, sold: Order, r: Fill, rest: Fill)
    requires gain == Wrap32(sold.amount * sold.price)
    requires total == Wrap32(totalGain + gain)
    requires r.gain == rest.gain
    requires r.liquidated == [sold] + rest.liquidated
    requires rest.gain == Wrap32(total + SumValue(rest.liquidated))
    ensures r.gain == Wrap32(totalGain + SumValue(r.liquidated))
  {
    assert r.liquidated[1..] == rest.liquidated;
    WrapAccumulate(totalGain, gain, sold.amount * sold.price, SumValue(rest.liquidated), SumValue(r.liquidated));
  }

  /**
    Every unit of an order of `amount` units is either liquidated or
    remains; the order is filled exactly when nothing remains, and every
    order involved is still live.
   */
  ghost predicate Conserved(amount: int, r: Fill) {
    && r.remaining.amount + SumAmount(r.liquidated) == amount
    && 0 <= r.remaining.amount <= amount
    && (r.filled <==> r.remaining.amount == 0)
    && AllPositive(r.book)
    && AllPositive(r.liquidated)
  }

  /** A positive sell order against live bids conserves its units. */
  lemma {:induction false} FillSellOrderConserves(orders: seq<Order>, order: Order, totalGain: Int32)
    requires AllPositive(orders)
    requires order.amount > 0
    ensures Conserved(order.amount, FillSellOrderFrom(orders, order, totalGain))
    decreases |orders|
  {
    var r := FillSellOrderFrom(orders, order, totalGain);
    var step := LiquidateFromSellOrder(orders, order);
    FillSellOrderFromUnfold(orders, order, totalGain);
    if !step.matched {
      assert SumAmount(r.liquidated) == 0;
    } else {
      var n := |orders|;
      var top := orders[n - 1];
      assert top.amount > 0;
      assert AllPositive(orders[..n - 1]);
      if step.filled {
        LeftOverPositive(orders[..n - 1], top, order.amount);
        ConservedAtLastStep(order.amount, step.liquidated, r);
      } else {
        var total := Wrap32(totalGain + step.gain);
        var rest := FillSellOrderFrom(step.book, step.remaining, total);
        FillSellOrderConserves(step.book, step.remaining, total);
        ConservedAfterWholeStep(order.amount, top, step.remaining.amount, rest, r);
      }
    }
  }

  /** A fill whose one and only step filled the order. */
  lemma ConservedAtLastStep(amount: int, sold: Order, r: Fill)
    requires amount > 0
    requires sold.amount == amount
    requires r.remaining.amount == 0 && r.filled && r.liquidated == [sold]
    requires AllPositive(r.book)
    ensures Conserved(amount, r)
  {
    assert SumAmount(r.liquidated) == amount + SumAmount([]);
  }

  /** A fill that first consumed one live order whole and then went on with the remaining units. */
  lemma ConservedAfterWholeStep(amount: int, top: Order, remaining: int, rest: Fill, r: Fill)
    requires 0 < top.amount < amount
    requires remaining == amount - top.amount
    requires Conserved(remaining, rest)
    requires r == Fill(rest.remaining, [top] + rest.liquidated, rest.gain, rest.filled, rest.book)
    ensures Conserved(amount, r)
  {
    assert r.liquidated[1..] == rest.liquidated;
  }

  /**
    `FillSellOrder` as a whole: the gain is the wrapped value of the fragments
    at their bids' prices, the fill works down the book from the top and
    stops as described, and for a positive order against live bids the
    units are conserved.
   */
  lemma FillSellOrderMeaning(orders: seq<Order>, order: Order)
    ensures var r := FillSellOrder(orders, order);
      && r.gain == Wrap32(SumValue(r.liquidated))
      && TakenFromTop(orders, r.liquidated)
      && (forall i :: 0 <= i < |r.liquidated| ==> r.liquidated[i].price >= order.price)
      && StoppedAsDescribed(orders, r)
      && (AllPositive(orders) && order.amount > 0 ==> Conserved(order.amount, r))
  {
    FillSellOrderGain(orders, order, 0);
    FillSellOrderTakesFromTop(orders, order, 0);
    FillSellOrderShape(orders, order, 0);
    if AllPositive(orders) && order.amount > 0 {
      FillSellOrderConserves(orders, order, 0);
    }
  }

  /** Two bids, 5@10 under 3@12, and an incoming sell of 6 at 9: both bids trade, the lower one partly. */
  lemma FillSellOrderExample()
    ensures var bids := [Order(0, "alice", 5, 10), Order(1, "bob", 3, 12)];
            var r := FillSellOrder(bids, Order(0, "", 6, 9));
            && r.liquidated == [Order(1, "bob", 3, 12), Order(0, "alice", 3, 10)]
            && r.remaining.amount == 0
            && r.gain == 66
            && r.filled
            && r.book == [Order(0, "alice", 2, 10)]
  {
  }
}

=== FILE: denom.dfy ===
/**
  The denom resolver: the voucher a denomination becomes when it crosses a
  (port, channel), and the store of denom traces that lets a voucher be
  turned back into the denomination it stands for.
 */
module DenomResolver {
  import opened Types
  import Mint

  /**
    `IBCDenom` of the trace parsed from "port/channel/denom": "ibc/"
    followed by the hex SHA-256 of that path (the prefixed denomination
    always has a path, so the hash form is always taken).
   */
  function IBCDenom(host: Host, port: string, channel: string, denom: Denom): string {
    "ibc/" + host.denomHash(port + "/" + channel + "/" + denom)
  }

  /** `VoucherDenom`: the first 16 characters of the IBC denomination. */
  function VoucherDenom(host: Host, port: string, channel: string, denom: Denom): (v: Denom)
    ensures |v| == 16
    ensures v <= IBCDenom(host, port, channel, denom)
    ensures Mint.IsIBCToken(v)
  {
    IBCDenom(host, port, channel, denom)[..16]
  }

  /** `SaveVoucherDenom`: records where a voucher comes from, the first time it is seen. */
  function SaveVoucherDenom(host: Host, traces: map<string, DenomTrace>, port: string, channel: string, denom: Denom): (t: map<string, DenomTrace>)
    ensures VoucherDenom(host, port, channel, denom) in t
    ensures t.Keys == traces.Keys + {VoucherDenom(host, port, channel, denom)}
    ensures forall k :: k in traces ==> t[k] == traces[k]
    ensures VoucherDenom(host, port, channel, denom) !in traces ==>
              t[VoucherDenom(host, port, channel, denom)] == DenomTrace(VoucherDenom(host, port, channel, denom), port, channel, denom)
  {
    var voucher := VoucherDenom(host, port, channel, denom);
    if voucher in traces then traces
    else traces[voucher := DenomTrace(voucher, port, channel, denom)]
  }

  /** `OriginalDenom`: the denomination behind a voucher, if the voucher was issued on this (port, channel). */
  function OriginalDenom(traces: map<string, DenomTrace>, port: string, channel: string, voucher: Denom): (r: (Denom, bool))
    ensures r.1 <==> voucher in traces && traces[voucher].port == port && traces[voucher].channel == channel
    ensures r.1 ==> r.0 == traces[voucher].origin
    ensures !r.1 ==> r.0 == ""
  {
    if voucher in traces then
      var trace := traces[voucher];
      if trace.port == port && trace.channel == channel then (trace.origin, true)
      else ("", false)
    else ("", false)
  }

  /**
    The denomination a payout is made in: the original behind `denom` when
    it is a voucher issued through (port, channel), and otherwise the voucher
    `denom` becomes across (voucherPort, voucherChannel).
   */
  function PayDenom(host: Host, traces: map<string, DenomTrace>, port: string, channel: string,
                    voucherPort: string, voucherChannel: string, denom: Denom): (d: Denom)
    ensures OriginalDenom(traces, port, channel, denom).1 ==> d == traces[denom].origin
    ensures !OriginalDenom(traces, port, channel, denom).1 ==> d == VoucherDenom(host, voucherPort, voucherChannel, denom)
    ensures !OriginalDenom(traces, port, channel, denom).1 ==> Mint.IsIBCToken(d) && |d| == 16
  {
    var (original, saved) := OriginalDenom(traces, port, channel, denom);
    if saved then original else VoucherDenom(host, voucherPort, voucherChannel, denom)
  }

  /** Saving twice is saving once. */
  lemma SaveVoucherDenomIdempotent(host: Host, traces: map<string, DenomTrace>, port: string, channel: string, denom: Denom)
    ensures var once := SaveVoucherDenom(host, traces, port, channel, denom);
            SaveVoucherDenom(host, once, port, channel, denom) == once
  {
  }

  /** A trace saved for a fresh voucher resolves back to the denomination, through that channel only. */
  lemma SaveThenResolve(host: Host, traces: map<string, DenomTrace>, port: string, channel: string, denom: Denom, queryPort: string, queryChannel: string)
    requires VoucherDenom(host, port, channel, denom) !in traces
    ensures var t := SaveVoucherDenom(host, traces, port, channel, denom);
            OriginalDenom(t, queryPort, queryChannel, VoucherDenom(host, port, channel, denom))
              == if queryPort == port && queryChannel == channel then (denom, true) else ("", false)
  {
  }
}

=== FILE: int32.dfy ===
/**
  Go's `int32`: amounts, prices, ids and gains in the exchange are 32-bit
  signed integers, and Go arithmetic on them wraps around silently. Every
  `+`, `-` and `*` the source performs on an `int32` is written here as the
  exact integer operation followed by `Wrap32`.
 */
module Int32 {

  const MIN: int := -0x8000_0000
  const MAX: int := 0x7fff_ffff
  const MODULUS: int := 0x1_0000_0000

  predicate InRange(x: int) {
    MIN <= x <= MAX
  }

  type Int32 = x: int | MIN <= x <= MAX

  /**
    Two's complement truncation of an exact result to 32 bits: the value in
    range that differs from `x` by a multiple of 2^32.
   */
  function Wrap32(x: int): (r: Int32)
    ensures InRange(x) ==> r == x
  {
    (x + 0x8000_0000) % MODULUS - 0x8000_0000
  }

  /** `Wrap32(x)` differs from `x` by a whole number of wraps. */
  lemma WrapOffset(x: int) returns (k: int)
    ensures Wrap32(x) == x - k * MODULUS
  {
    k := (x + 0x8000_0000) / MODULUS;
  }

  /** Two values in range that differ by whole wraps are equal. */
  lemma SameInRange(a: int, b: int, k: int)
    requires InRange(a) && InRange(b)
    requires a == b + k * MODULUS
    ensures a == b
  {
  }

  /** Adding whole wraps does not change the wrapped value. */
  lemma WrapShift(x: int, k: int)
    ensures Wrap32(x + k * MODULUS) == Wrap32(x)
  {
    var k1 := WrapOffset(x + k * MODULUS);
    var k2 := WrapOffset(x);
    assert Wrap32(x + k * MODULUS) == Wrap32(x) + (k - k1 + k2) * MODULUS;
    SameInRange(Wrap32(x + k * MODULUS), Wrap32(x), k - k1 + k2);
  }

  /** Equal exact results wrap to equal values. */
  lemma WrapCongruent(x: int, y: int)
    requires x == y
    ensures Wrap32(x) == Wrap32(y)
  {
  }

  /** Wrapping an intermediate result does not change the final wrapped sum. */
  lemma WrapAddLeft(x: int, y: int)
    ensures Wrap32(Wrap32(x) + y) == Wrap32(x + y)
  {
    var k := WrapOffset(x);
    assert Wrap32(x) + y == (x + y) + (-k) * MODULUS;
    WrapShift(x + y, -k);
  }

  lemma WrapAddRight(x: int, y: int)
    ensures Wrap32(x + Wrap32(y)) == Wrap32(x + y)
  {
    WrapAddLeft(y, x);
    assert x + Wrap32(y) == Wrap32(y) + x;
  }

  /**
    A running total that wraps at every step ends where the exact total
    wraps: adding `step` (the wrapped `v`) and then the wrapped rest gives
    the wrapped `acc + sum` when `sum` is `v` plus the rest.
   */
  lemma WrapAccumulate(acc: int, step: int, v: int, rest: int, sum: int)
    requires step == Wrap32(v)
    requires sum == v + rest
    ensures Wrap32(Wrap32(acc + step) + rest) == Wrap32(acc + sum)
  {
    WrapAddLeft(acc + step, rest);
    WrapAddRight(acc + rest, v);
    assert acc + step + rest == (acc + rest) + Wrap32(v);
    assert (acc + rest) + v == acc + sum;
  }
}

=== FILE: keeper.dfy ===
/**
  The keeper's state: the buy and sell books (stored under their own
  index), the denom traces and the bank; and the payout loop both receive
  handlers run over the liquidated orders.
 */
module Keeper {
  import opened Int32
  import opened Types
  import opened Bank
  import opened Mint

  datatype State = State(
    buyOrderBooks: map<string, BuyOrderBook>,
    sellOrderBooks: map<string, SellOrderBook>,
    denomTraces: map<string, DenomTrace>,
    bank: Bank)

  /** `SetBuyOrderBook` stores a book under its own index. */
  function SetBuyOrderBook(s: State, b: BuyOrderBook): State {
    s.(buyOrderBooks := s.buyOrderBooks[b.index := b])
  }

  /** `SetSellOrderBook` stores a book under its own index. */
  function SetSellOrderBook(s: State, b: SellOrderBook): State {
    s.(sellOrderBooks := s.sellOrderBooks[b.index := b])
  }

  /** `OrderBookIndex` of the pair a packet trades, on the packet's source side. */
  function PairIndex(host: Host, packet: Packet, amountDenom: Denom, priceDenom: Denom): string {
    host.orderBookIndex(packet.sourcePort, packet.sourceChannel, amountDenom, priceDenom)
  }

  /** `types.Order{Amount: amount, Price: price}`: an incoming order, with zero id and no creator. */
  function Incoming(amount: Int32, price: Int32): Order {
    Order(0, "", amount, price)
  }

  /** Every stored book sits under the index it carries. */
  ghost predicate WellKeyed(s: State) {
    && (forall k :: k in s.buyOrderBooks ==> s.buyOrderBooks[k].index == k)
    && (forall k :: k in s.sellOrderBooks ==> s.sellOrderBooks[k].index == k)
  }

  /** Runs a custody step on the state's bank. */
  function WithBank(s: State, r: Outcome<Bank, ()>): (o: Outcome<State, ()>)
    ensures o.Ok? <==> r.Ok?
    ensures o.Panic? <==> r.Panic?
    ensures r.Ok? ==> o.state == s.(bank := r.state)
    ensures r.Fail? ==> o.state == s.(bank := r.state) && o.error == r.error
  {
    match r
    case Ok(b, _) => Ok(s.(bank := b), ())
    case Fail(b, e) => Fail(s.(bank := b), e)
    case Panic(why) => Panic(why)
  }

  /**
    Decodes the receiver's address and `SafeMint`s it `amount` of `denom`
    on (port, channel): the pattern of every refund and payout.
   */
  function MintTo(host: Host, s: State, port: string, channel: string, receiver: Account, denom: Denom, amount: Int32): (r: Outcome<State, ()>)
    ensures !host.validAddress(receiver) ==> r == Fail(s, InvalidAddress)
    ensures r.Fail? ==> r.state == s
    ensures r.Panic? <==> host.validAddress(receiver) && !(host.validDenom(denom) && amount >= 0)
    ensures r.Ok? <==> && host.validAddress(receiver) && host.validDenom(denom) && amount >= 0
                       && CanCredit(host, s.bank, port, channel, Coin(denom, amount as nat))
    ensures r.Ok? ==> r.state == s.(bank := r.state.bank)
    ensures r.Ok? ==> Credited(host, s.bank, r.state.bank, port, channel, receiver, Coin(denom, amount))
  {
    if !host.validAddress(receiver) then Fail(s, InvalidAddress)
    else WithBank(s, SafeMint(host, s.bank, port, channel, receiver, denom, amount))
  }

  datatype Payment = Payment(receiver: Account, amount: Int32)

  /** Sum of all payments. */
  function Total(payments: seq<Payment>): int {
    if |payments| == 0 then 0 else payments[0].amount + Total(payments[1..])
  }

  /** Sum of the payments to account `a`. */
  function PaidTo(payments: seq<Payment>, a: Account): int {
    if |payments| == 0 then 0
    else (if payments[0].receiver == a then payments[0].amount else 0) + PaidTo(payments[1..], a)
  }

  ghost predicate Payable(host: Host, payments: seq<Payment>) {
    forall i :: 0 <= i < |payments| ==> host.validAddress(payments[i].receiver) && payments[i].amount >= 0
  }

  /**
    Each receiver got its payments in `denom`: minted for a voucher, taken
    from the channel's escrow for a native asset.
   */
  ghost predicate PaidOut(host: Host, b: Bank, b': Bank, port: string, channel: string, denom: Denom, payments: seq<Payment>) {
    var escrow := host.escrowAddress(port, channel);
    && (forall a, d :: Balance(b', a, d) == Balance(b, a, d) +
          (if d != denom then 0
           else PaidTo(payments, a) - (if !IsIBCToken(denom) && a == escrow then Total(payments) else 0)))
    && (forall d :: Supply(b', d) == Supply(b, d) + (if d == denom && IsIBCToken(denom) then Total(payments) else 0))
  }

  /**
    The payout loop of the receive handlers: for each liquidated order in
    turn, decode the creator's address and `SafeMint` its share; the first
    failure ends the loop, keeping the payouts already made.
   */
  function PayAll(host: Host, bank: Bank, port: string, channel: string, denom: Denom, payments: seq<Payment>): (r: Outcome<Bank, ()>)
    ensures r.Ok? ==> forall i :: 0 <= i < |payments| ==> host.validAddress(payments[i].receiver)
    ensures r.Fail? ==> r.error == InvalidAddress || r.error == InsufficientFunds
    ensures |payments| == 0 ==> r == Ok(bank, ())
    ensures r.Ok? && |payments| > 0 ==> host.validDenom(denom)
    decreases |payments|
  {
    if |payments| == 0 then Ok(bank, ())
    else if !host.validAddress(payments[0].receiver) then Fail(bank, InvalidAddress)
    else
      match SafeMint(host, bank, port, channel, payments[0].receiver, denom, payments[0].amount)
      case Ok(b1, _) => PayAll(host, b1, port, channel, denom, payments[1..])
      case Fail(b1, e) => Fail(b1, e)
      case Panic(why) => Panic(why)
  }

  /** With valid receivers and a covering escrow, everyone is paid in full. */
  lemma {:induction false} PayAllPaysEveryone(host: Host, bank: Bank, port: string, channel: string, denom: Denom, payments: seq<Payment>)
    requires Payable(host, payments)
    requires host.validDenom(denom)
    requires IsIBCToken(denom) || Total(payments) <= Balance(bank, host.escrowAddress(port, channel), denom)
    ensures var r := PayAll(host, bank, port, channel, denom, payments);
            r.Ok? && PaidOut(host, bank, r.state, port, channel, denom, payments)
    decreases |payments|
  {
    if |payments| > 0 {
      var p := payments[0];
      var rest := payments[1..];
      TotalNonNegative(host, rest);
      var m := SafeMint(host, bank, port, channel, p.receiver, denom, p.amount);
      assert m.Ok?;
      var b1 := m.state;
      assert Payable(host, rest);
      if !IsIBCToken(denom) {
        var escrow := host.escrowAddress(port, channel);
        assert Balance(b1, escrow, denom) >= Balance(bank, escrow, denom) - p.amount;
      }
      PayAllPaysEveryone(host, b1, port, channel, denom, rest);
      var r := PayAll(host, b1, port, channel, denom, rest);
      assert PayAll(host, bank, port, channel, denom, payments) == r;
      PaidOutStep(host, bank, b1, r.state, port, channel, denom, payments);
    } else {
      assert Total(payments) == 0;
      assert forall a :: PaidTo(payments, a) == 0;
    }
  }

  /** A payout loop that ran to the end paid every receiver in full. */
  lemma {:induction false} PayAllOkPaidOut(host: Host, bank: Bank, port: string, channel: string, denom: Denom, payments: seq<Payment>)
    requires PayAll(host, bank, port, channel, denom, payments).Ok?
    ensures PaidOut(host, bank, PayAll(host, bank, port, channel, denom, payments).state, port, channel, denom, payments)
    decreases |payments|
  {
    if |payments| > 0 {
      var m := SafeMint(host, bank, port, channel, payments[0].receiver, denom, payments[0].amount);
      assert m.Ok?;
      PayAllOkPaidOut(host, m.state, port, channel, denom, payments[1..]);
      PaidOutStep(host, bank, m.state, PayAll(host, m.state, port, channel, denom, payments[1..]).state,
                  port, channel, denom, payments);
    } else {
      assert Total(payments) == 0;
      assert forall a :: PaidTo(payments, a) == 0;
    }
  }

  /** Paying the first receiver and then the rest pays everyone. */
  lemma PaidOutStep(host: Host, b: Bank, b1: Bank, b2: Bank, port: string, channel: string, denom: Denom, payments: seq<Payment>)
    requires |payments| > 0 && payments[0].amount >= 0
    requires Credited(host, b, b1, port, channel, payments[0].receiver, Coin(denom, payments[0].amount))
    requires PaidOut(host, b1, b2, port, channel, denom, payments[1..])
    ensures PaidOut(host, b, b2, port, channel, denom, payments)
  {
    var escrow := host.escrowAddress(port, channel);
    var rest := payments[1..];
    forall d
      ensures Supply(b2, d) == Supply(b, d) + (if d == denom && IsIBCToken(denom) then Total(payments) else 0)
    {
      assert Supply(b2, d) == Supply(b1, d) + (if d == denom && IsIBCToken(denom) then Total(rest) else 0);
    }
    forall a, d
      ensures Balance(b2, a, d) == Balance(b, a, d) +
        (if d != denom then 0
         else PaidTo(payments, a) - (if !IsIBCToken(denom) && a == escrow then Total(payments) else 0))
    {
      assert Balance(b2, a, d) == Balance(b1, a, d) +
        (if d != denom then 0
         else PaidTo(rest, a) - (if !IsIBCToken(denom) && a == escrow then Total(rest) else 0));
    }
  }

  lemma {:induction false} TotalNonNegative(host: Host, payments: seq<Payment>)
    requires Payable(host, payments)
    ensures Total(payments) >= 0
    decreases |payments|
  {
    if |payments| > 0 {
      assert Payable(host, payments[1..]);
      TotalNonNegative(host, payments[1..]);
    }
  }
}

=== FILE: mint.dfy ===
/**
  Custody of the assets an order offers. A voucher (a denomination with the
  "ibc/" prefix) leaves the chain by being burned and comes back by being
  minted; a native asset leaves by being locked in the escrow account of the
  (port, channel) and comes back by being unlocked from it.
 */
module Mint {
  import opened Int32
  import opened Types
  import opened Bank

  /** `isIBCToken`: the denomination carries the "ibc/" voucher prefix. */
  predicate IsIBCToken(denom: Denom): (b: bool)
    ensures b <==> "ibc/" <= denom
  {
    |denom| >= 4 && denom[..4] == "ibc/"
  }

  /**
    `sdk.NewCoin(denom, sdk.NewInt(int64(amount)))`: the SDK panics on an
    invalid denomination or a negative amount, so `None` stands for that panic.
   */
  function NewCoin(host: Host, denom: Denom, amount: Int32): (r: Option<Coin>)
    ensures r.Some? <==> host.validDenom(denom) && amount >= 0
    ensures r.Some? ==> r.value.denom == denom && r.value.amount == amount
  {
    if host.validDenom(denom) && amount >= 0 then Some(Coin(denom, amount)) else None
  }

  /** The coin taken from `from`: burned for a voucher, locked in the channel's escrow otherwise. */
  ghost predicate Debited(host: Host, b: Bank, b': Bank, port: string, channel: string, from: Account, coin: Coin) {
    if IsIBCToken(coin.denom) then Burned(b, b', from, coin)
    else Moved(b, b', from, host.escrowAddress(port, channel), coin)
  }

  /** The coin given to `to`: minted for a voucher, unlocked from the channel's escrow otherwise. */
  ghost predicate Credited(host: Host, b: Bank, b': Bank, port: string, channel: string, to: Account, coin: Coin) {
    if IsIBCToken(coin.denom) then Minted(b, b', to, coin)
    else Moved(b, b', host.escrowAddress(port, channel), to, coin)
  }

  /** Whoever pays a credit of `coin` on this channel: nobody for a voucher, the escrow account otherwise. */
  ghost predicate CanCredit(host: Host, b: Bank, port: string, channel: string, coin: Coin) {
    IsIBCToken(coin.denom) || coin.amount <= Balance(b, host.escrowAddress(port, channel), coin.denom)
  }

  /** `SafeBurn`: burns a voucher, locks a native asset. */
  function SafeBurn(host: Host, bank: Bank, port: string, channel: string, sender: Account, denom: Denom, amount: Int32): (r: Outcome<Bank, ()>)
    ensures r.Panic? <==> NewCoin(host, denom, amount).None?
    ensures r.Fail? <==> NewCoin(host, denom, amount).Some? && Balance(bank, sender, denom) < amount
    ensures r.Fail? ==> r.state == bank && r.error == InsufficientFunds
    ensures r.Ok? ==> Debited(host, bank, r.state, port, channel, sender, Coin(denom, amount))
  {
    match NewCoin(host, denom, amount)
    case None => Panic("invalid coin")
    case Some(tokens) =>
      if IsIBCToken(denom) then BurnTokens(host, bank, sender, tokens)
      else LockTokens(host, bank, port, channel, sender, tokens)
  }

  /** `BurnTokens`: the module account takes the coins and burns them; the burn cannot fail. */
  function BurnTokens(host: Host, bank: Bank, sender: Account, tokens: Coin): (r: Outcome<Bank, ()>)
    ensures !r.Panic?
    ensures r.Fail? <==> Balance(bank, sender, tokens.denom) < tokens.amount
    ensures r.Fail? ==> r.state == bank && r.error == InsufficientFunds
    ensures r.Ok? ==> Burned(bank, r.state, sender, tokens)
  {
    match SendCoins(bank, sender, host.moduleAccount, tokens)
    case Fail(b, e) => Fail(b, e)
    case Panic(why) => Panic(why)
    case Ok(b1, _) =>
      match BurnCoins(b1, host.moduleAccount, tokens)
      case Fail(_, _) => Panic("cannot burn coins after a successful send to a module account")
      case Panic(why) => Panic(why)
      case Ok(b2, _) => Ok(b2, ())
  }

  /** `LockTokens`: moves the coins into the escrow account of the (port, channel). */
  function LockTokens(host: Host, bank: Bank, port: string, channel: string, sender: Account, tokens: Coin): (r: Outcome<Bank, ()>)
    ensures !r.Panic?
    ensures r.Fail? <==> Balance(bank, sender, tokens.denom) < tokens.amount
    ensures r.Fail? ==> r.state == bank && r.error == InsufficientFunds
    ensures r.Ok? ==> Moved(bank, r.state, sender, host.escrowAddress(port, channel), tokens)
  {
    SendCoins(bank, sender, host.escrowAddress(port, channel), tokens)
  }

  /** `SafeMint`: mints a voucher, unlocks a native asset. */
  function SafeMint(host: Host, bank: Bank, port: string, channel: string, receiver: Account, denom: Denom, amount: Int32): (r: Outcome<Bank, ()>)
    ensures r.Panic? <==> NewCoin(host, denom, amount).None?
    ensures r.Fail? <==> NewCoin(host, denom, amount).Some? && !CanCredit(host, bank, port, channel, Coin(denom, amount))
    ensures r.Fail? ==> r.state == bank && r.error == InsufficientFunds
    ensures r.Ok? ==> Credited(host, bank, r.state, port, channel, receiver, Coin(denom, amount))
  {
    match NewCoin(host, denom, amount)
    case None => Panic("invalid coin")
    case Some(tokens) =>
      if IsIBCToken(denom) then MintTokens(host, bank, receiver, tokens)
      else UnlockTokens(host, bank, port, channel, receiver, tokens)
  }

  /** `MintTokens`: mints into the module account and hands the coins over; the hand-over cannot fail. */
  function MintTokens(host: Host, bank: Bank, receiver: Account, tokens: Coin): (r: Outcome<Bank, ()>)
    ensures r.Ok? && Minted(bank, r.state, receiver, tokens)
  {
    match MintCoins(bank, host.moduleAccount, tokens)
    case Fail(b, e) => Fail(b, e)
    case Panic(why) => Panic(why)
    case Ok(b1, _) =>
      match SendCoins(b1, host.moduleAccount, receiver, tokens)
      case Fail(_, _) => Panic("unable to send coins from module to account despite previously minting coins to module account")
      case Panic(why) => Panic(why)
      case Ok(b2, _) => Ok(b2, ())
  }

  /** `UnlockTokens`: moves the coins out of the escrow account of the (port, channel). */
  function UnlockTokens(host: Host, bank: Bank, port: string, channel: string, receiver: Account, tokens: Coin): (r: Outcome<Bank, ()>)
    ensures !r.Panic?
    ensures r.Fail? <==> Balance(bank, host.escrowAddress(port, channel), tokens.denom) < tokens.amount
    ensures r.Fail? ==> r.state == bank && r.error == InsufficientFunds
    ensures r.Ok? ==> Moved(bank, r.state, host.escrowAddress(port, channel), receiver, tokens)
  {
    SendCoins(bank, host.escrowAddress(port, channel), receiver, tokens)
  }

  /** Burning (or locking) and then minting (or unlocking) the same coin for the same account on the same channel changes nothing. */
  lemma SafeBurnThenSafeMintRestores(host: Host, bank: Bank, port: string, channel: string, account: Account, denom: Denom, amount: Int32)
    requires SafeBurn(host, bank, port, channel, account, denom, amount).Ok?
    ensures var b1 := SafeBurn(host, bank, port, channel, account, denom, amount).state;
            var r := SafeMint(host, b1, port, channel, account, denom, amount);
            r.Ok? && SameHoldings(bank, r.state)
  {
    var b1 := SafeBurn(host, bank, port, channel, account, denom, amount).state;
    var coin := Coin(denom, amount);
    if !IsIBCToken(denom) {
      var escrow := host.escrowAddress(port, channel);
      assert Balance(b1, escrow, denom) >= amount by {
        if account != escrow {
          assert Balance(b1, escrow, denom) == Balance(bank, escrow, denom) + Share(escrow, denom, escrow, coin);
        } else {
          assert Balance(bank, account, denom) >= amount;
        }
      }
    }
  }

  /**
    With one escrow account per channel, locking or burning on one channel
    leaves the escrow of every other channel alone (unless that escrow is
    itself the sender).
   */
  lemma SafeBurnLeavesOtherEscrows(host: Host, bank: Bank, port: string, channel: string, sender: Account, denom: Denom, amount: Int32,
                                   otherPort: string, otherChannel: string)
    requires EscrowInjective(host)
    requires otherPort != port || otherChannel != channel
    requires sender != host.escrowAddress(otherPort, otherChannel)
    requires SafeBurn(host, bank, port, channel, sender, denom, amount).Ok?
    ensures var r := SafeBurn(host, bank, port, channel, sender, denom, amount);
            forall d :: Balance(r.state, host.escrowAddress(otherPort, otherChannel), d) == Balance(bank, host.escrowAddress(otherPort, otherChannel), d)
  {
    assert host.escrowAddress(otherPort, otherChannel) != host.escrowAddress(port, channel);
  }
}

=== FILE: msg_server.dfy ===
/**
  The transaction handlers. `SendSellOrder` and `SendBuyOrder` take the
  order's amount into custody and build the packet (its transmission is
  not part of this model); `CancelBuyOrder` and `CancelSellOrder` take a
  resting order out of its book and refund its creator.
 */
module MsgServer {
  import opened Int32
  import opened Types
  import opened Books
  import opened Bank
  import opened Mint
  import opened DenomResolver
  import opened Keeper

  /**
    The custody step of both send handlers: decode the creator's address,
    `SafeBurn` the order's amount on (port, channel), and record the
    voucher the amount denomination becomes on the other side.
   */
  function TakeIntoCustody(host: Host, s: State, port: string, channel: string, creator: Account, denom: Denom, amount: Int32): (r: Outcome<State, ()>)
    ensures !host.validAddress(creator) ==> r == Fail(s, InvalidAddress)
    ensures r.Fail? ==> r.state == s
    ensures r.Ok? <==> && host.validAddress(creator) && host.validDenom(denom) && 0 <= amount
                       && amount <= Balance(s.bank, creator, denom)
    ensures r.Ok? ==> && r.state.buyOrderBooks == s.buyOrderBooks && r.state.sellOrderBooks == s.sellOrderBooks
                      && Debited(host, s.bank, r.state.bank, port, channel, creator, Coin(denom, amount))
    ensures r.Ok? ==> var voucher := VoucherDenom(host, port, channel, denom);
                      && r.state.denomTraces.Keys == s.denomTraces.Keys + {voucher}
                      && (forall k :: k in s.denomTraces ==> r.state.denomTraces[k] == s.denomTraces[k])
                      && (voucher !in s.denomTraces ==> OriginalDenom(r.state.denomTraces, port, channel, voucher) == (denom, true))
  {
    if !host.validAddress(creator) then Fail(s, InvalidAddress)
    else
      match SafeBurn(host, s.bank, port, channel, creator, denom, amount)
      case Ok(b, _) => Ok(s.(bank := b, denomTraces := SaveVoucherDenom(host, s.denomTraces, port, channel, denom)), ())
      case Fail(b, e) => Fail(s.(bank := b), e)
      case Panic(why) => Panic(why)
  }

  /**
    `SendSellOrder` up to transmission: the local sell book of the pair must
    exist, then the amount on sale is taken into custody and the packet
    carries the message's order with the creator as seller.
   */
  function SendSellOrder(host: Host, s: State, msg: MsgSendSellOrder): (r: Outcome<State, SellOrderPacketData>)
    ensures host.orderBookIndex(msg.port, msg.channelID, msg.amountDenom, msg.priceDenom) !in s.sellOrderBooks ==>
              r == Fail(s, PairNotFound)
    ensures r.Fail? ==> r.state == s
    ensures r.Ok? <==> && host.orderBookIndex(msg.port, msg.channelID, msg.amountDenom, msg.priceDenom) in s.sellOrderBooks
                       && TakeIntoCustody(host, s, msg.port, msg.channelID, msg.creator, msg.amountDenom, msg.amount).Ok?
    ensures r.Ok? ==> r.state == TakeIntoCustody(host, s, msg.port, msg.channelID, msg.creator, msg.amountDenom, msg.amount).state
    ensures r.Ok? ==> && r.value.seller == msg.creator
                      && r.value.amountDenom == msg.amountDenom && r.value.amount == msg.amount
                      && r.value.priceDenom == msg.priceDenom && r.value.price == msg.price
  {
    if host.orderBookIndex(msg.port, msg.channelID, msg.amountDenom, msg.priceDenom) !in s.sellOrderBooks then Fail(s, PairNotFound)
    else
      match TakeIntoCustody(host, s, msg.port, msg.channelID, msg.creator, msg.amountDenom, msg.amount)
      case Ok(s1, _) => Ok(s1, SellOrderPacketData(msg.amountDenom, msg.amount, msg.priceDenom, msg.price, msg.creator))
      case Fail(s1, e) => Fail(s1, e)
      case Panic(why) => Panic(why)
  }

  /**
    `SendBuyOrder` up to transmission: the local buy book of the pair must
    exist, then the order's amount (not its value) of the amount
    denomination is taken into custody and the packet carries the message's
    order with the creator as buyer.
   */
  function SendBuyOrder(host: Host, s: State, msg: MsgSendBuyOrder): (r: Outcome<State, BuyOrderPacketData>)
    ensures host.orderBookIndex(msg.port, msg.channelID, msg.amountDenom, msg.priceDenom) !in s.buyOrderBooks ==>
              r == Fail(s, PairNotFound)
    ensures r.Fail? ==> r.state == s
    ensures r.Ok? <==> && host.orderBookIndex(msg.port, msg.channelID, msg.amountDenom, msg.priceDenom) in s.buyOrderBooks
                       && TakeIntoCustody(host, s, msg.port, msg.channelID, msg.creator, msg.amountDenom, msg.amount).Ok?
    ensures r.Ok? ==> r.state == TakeIntoCustody(host, s, msg.port, msg.channelID, msg.creator, msg.amountDenom, msg.amount).state
    ensures r.Ok? ==> && r.value.buyer == msg.creator
                      && r.value.amountDenom == msg.amountDenom && r.value.amount == msg.amount
                      && r.value.priceDenom == msg.priceDenom && r.value.price == msg.price
  {
    if host.orderBookIndex(msg.port, msg.channelID, msg.amountDenom, msg.priceDenom) !in s.buyOrderBooks then Fail(s, PairNotFound)
    else
      match TakeIntoCustody(host, s, msg.port, msg.channelID, msg.creator, msg.amountDenom, msg.amount)
      case Ok(s1, _) => Ok(s1, BuyOrderPacketData(msg.amountDenom, msg.amount, msg.priceDenom, msg.price, msg.creator))
      case Fail(s1, e) => Fail(s1, e)
      case Panic(why) => Panic(why)
  }

  /**
    `CancelBuyOrder`: the buy book of the pair must exist and hold the order,
    and only its creator may cancel it; the order leaves the stored book
    and its creator is refunded its value (amount times price, in 32 bits)
    of the amount denomination.
   */
  function CancelBuyOrder(host: Host, s: State, msg: MsgCancelBuyOrder): (r: Outcome<State, ()>)
    ensures var index := host.orderBookIndex(msg.port, msg.channel, msg.amountDenom, msg.priceDenom);
            && (index !in s.buyOrderBooks ==> r == Fail(s, PairNotFound))
            && (index in s.buyOrderBooks && !HasId(s.buyOrderBooks[index].book.orders, msg.orderID) ==> r == Fail(s, OrderNotFound))
            && (r.Ok? ==> && index in s.buyOrderBooks
                          && var book := s.buyOrderBooks[index];
                          && var order := GetOrderFromId(book.book, msg.orderID).value;
                          && order.creator == msg.creator
                          && r.state.buyOrderBooks == s.buyOrderBooks[book.index := book.(book := RemoveOrderFromId(book.book, msg.orderID).value)]
                          && Wrap32(order.amount * order.price) >= 0
                          && Credited(host, s.bank, r.state.bank, msg.port, msg.channel, msg.creator,
                                      Coin(msg.amountDenom, Wrap32(order.amount * order.price))))
    ensures var index := host.orderBookIndex(msg.port, msg.channel, msg.amountDenom, msg.priceDenom);
            && index in s.buyOrderBooks && HasId(s.buyOrderBooks[index].book.orders, msg.orderID)
            && GetOrderFromId(s.buyOrderBooks[index].book, msg.orderID).value.creator != msg.creator
            ==> r == Fail(s, NotCreator)
    ensures r.Fail? && r.error == NotCreator ==> r.state == s
    ensures var index := host.orderBookIndex(msg.port, msg.channel, msg.amountDenom, msg.priceDenom);
            r.Ok? <==> && index in s.buyOrderBooks && HasId(s.buyOrderBooks[index].book.orders, msg.orderID)
                       && var order := GetOrderFromId(s.buyOrderBooks[index].book, msg.orderID).value;
                       && order.creator == msg.creator
                       && host.validAddress(order.creator) && host.validDenom(msg.amountDenom)
                       && Wrap32(order.amount * order.price) >= 0
                       && CanCredit(host, s.bank, msg.port, msg.channel,
                                    Coin(msg.amountDenom, Wrap32(order.amount * order.price) as nat))
    ensures var index := host.orderBookIndex(msg.port, msg.channel, msg.amountDenom, msg.priceDenom);
            && r.Fail? && index in s.buyOrderBooks && HasId(s.buyOrderBooks[index].book.orders, msg.orderID)
            && GetOrderFromId(s.buyOrderBooks[index].book, msg.orderID).value.creator == msg.creator
            ==> var book := s.buyOrderBooks[index];
                r.state == s.(buyOrderBooks := s.buyOrderBooks[book.index := book.(book := RemoveOrderFromId(book.book, msg.orderID).value)])
    ensures !r.Panic? ==> r.state.sellOrderBooks == s.sellOrderBooks && r.state.denomTraces == s.denomTraces
  {
    var index := host.orderBookIndex(msg.port, msg.channel, msg.amountDenom, msg.priceDenom);
    if index !in s.buyOrderBooks then Fail(s, PairNotFound)
    else
      var book := s.buyOrderBooks[index];
      match GetOrderFromId(book.book, msg.orderID)
      case None => Fail(s, OrderNotFound)
      case Some(order) =>
        if msg.creator != order.creator then Fail(s, NotCreator)
        else
          match RemoveOrderFromId(book.book, msg.orderID)
          case None => Fail(s, OrderNotFound)
          case Some(rest) =>
            MintTo(host, SetBuyOrderBook(s, book.(book := rest)), msg.port, msg.channel, order.creator,
                   msg.amountDenom, Wrap32(order.amount * order.price))
  }

  /**
    `CancelSellOrder`: a missing sell book is not an error; otherwise the
    book must hold the order and only its creator may cancel it; the order
    leaves the stored book and its creator is refunded its amount of the
    amount denomination.
   */
  function CancelSellOrder(host: Host, s: State, msg: MsgCancelSellOrder): (r: Outcome<State, ()>)
    ensures var index := host.orderBookIndex(msg.port, msg.channel, msg.amountDenom, msg.priceDenom);
            && (index !in s.sellOrderBooks ==> r == Ok(s, ()))
            && (index in s.sellOrderBooks && !HasId(s.sellOrderBooks[index].book.orders, msg.orderID) ==> r == Fail(s, OrderNotFound))
            && (r.Ok? && index in s.sellOrderBooks ==>
                          && var book := s.sellOrderBooks[index];
                          && var order := GetOrderFromId(book.book, msg.orderID).value;
                          && order.creator == msg.creator
                          && r.state.sellOrderBooks == s.sellOrderBooks[book.index := book.(book := RemoveOrderFromId(book.book, msg.orderID).value)]
                          && order.amount >= 0
                          && Credited(host, s.bank, r.state.bank, msg.port, msg.channel, msg.creator,
                                      Coin(msg.amountDenom, order.amount)))
    ensures var index := host.orderBookIndex(msg.port, msg.channel, msg.amountDenom, msg.priceDenom);
            && index in s.sellOrderBooks && HasId(s.sellOrderBooks[index].book.orders, msg.orderID)
            && GetOrderFromId(s.sellOrderBooks[index].book, msg.orderID).value.creator != msg.creator
            ==> r == Fail(s, NotCreator)
    ensures r.Fail? && r.error == NotCreator ==> r.state == s
    ensures var index := host.orderBookIndex(msg.port, msg.channel, msg.amountDenom, msg.priceDenom);
            r.Ok? <==> || index !in s.sellOrderBooks
                       || (&& HasId(s.sellOrderBooks[index].book.orders, msg.orderID)
                           && var order := GetOrderFromId(s.sellOrderBooks[index].book, msg.orderID).value;
                           && order.creator == msg.creator
                           && host.validAddress(order.creator) && host.validDenom(msg.amountDenom)
                           && order.amount >= 0
                           && CanCredit(host, s.bank, msg.port, msg.channel, Coin(msg.amountDenom, order.amount as nat)))
    ensures var index := host.orderBookIndex(msg.port, msg.channel, msg.amountDenom, msg.priceDenom);
            && r.Fail? && index in s.sellOrderBooks && HasId(s.sellOrderBooks[index].book.orders, msg.orderID)
            && GetOrderFromId(s.sellOrderBooks[index].book, msg.orderID).value.creator == msg.creator
            ==> var book := s.sellOrderBooks[index];
                r.state == s.(sellOrderBooks := s.sellOrderBooks[book.index := book.(book := RemoveOrderFromId(book.book, msg.orderID).value)])
    ensures !r.Panic? ==> r.state.buyOrderBooks == s.buyOrderBooks && r.state.denomTraces == s.denomTraces
  {
    var index := host.orderBookIndex(msg.port, msg.channel, msg.amountDenom, msg.priceDenom);
    if index !in s.sellOrderBooks then Ok(s, ())
    else
      var book := s.sellOrderBooks[index];
      match GetOrderFromId(book.book, msg.orderID)
      case None => Fail(s, OrderNotFound)
      case Some(order) =>
        if order.creator != msg.creator then Fail(s, NotCreator)
        else
          match RemoveOrderFromId(book.book, msg.orderID)
          case None => Fail(s, OrderNotFound)
          case Some(rest) =>
            MintTo(host, SetSellOrderBook(s, book.(book := rest)), msg.port, msg.channel, order.creator,
                   msg.amountDenom, order.amount)
  }

  /**
    With well-keyed stores and unique ids, a successful buy cancellation
    leaves no order with that id in the pair's book, keeps every other
    order of it, and touches no other book.
   */
  lemma CancelBuyRemovesOrder(host: Host, s: State, msg: MsgCancelBuyOrder)
    requires WellKeyed(s)
    requires var index := host.orderBookIndex(msg.port, msg.channel, msg.amountDenom, msg.priceDenom);
             index in s.buyOrderBooks ==> UniqueIds(s.buyOrderBooks[index].book.orders)
    requires CancelBuyOrder(host, s, msg).Ok?
    ensures var index := host.orderBookIndex(msg.port, msg.channel, msg.amountDenom, msg.priceDenom);
            var r := CancelBuyOrder(host, s, msg);
            && index in r.state.buyOrderBooks
            && !HasId(r.state.buyOrderBooks[index].book.orders, msg.orderID)
            && (forall o :: o in s.buyOrderBooks[index].book.orders && o.id != msg.orderID ==> o in r.state.buyOrderBooks[index].book.orders)
            && (forall k :: k in s.buyOrderBooks && k != index ==> k in r.state.buyOrderBooks && r.state.buyOrderBooks[k] == s.buyOrderBooks[k])
            && WellKeyed(r.state)
  {
    var index := host.orderBookIndex(msg.port, msg.channel, msg.amountDenom, msg.priceDenom);
    RemoveDeletesExactlyThatId(s.buyOrderBooks[index].book, msg.orderID);
  }

  /** The same for a successful sell cancellation of a book that exists. */
  lemma CancelSellRemovesOrder(host: Host, s: State, msg: MsgCancelSellOrder)
    requires WellKeyed(s)
    requires var index := host.orderBookIndex(msg.port, msg.channel, msg.amountDenom, msg.priceDenom);
             index in s.sellOrderBooks && UniqueIds(s.sellOrderBooks[index].book.orders)
    requires CancelSellOrder(host, s, msg).Ok?
    ensures var index := host.orderBookIndex(msg.port, msg.channel, msg.amountDenom, msg.priceDenom);
            var r := CancelSellOrder(host, s, msg);
            && index in r.state.sellOrderBooks
            && !HasId(r.state.sellOrderBooks[index].book.orders, msg.orderID)
            && (forall o :: o in s.sellOrderBooks[index].book.orders && o.id != msg.orderID ==> o in r.state.sellOrderBooks[index].book.orders)
            && (forall k :: k in s.sellOrderBooks && k != index ==> k in r.state.sellOrderBooks && r.state.sellOrderBooks[k] == s.sellOrderBooks[k])
            && WellKeyed(r.state)
  {
    var index := host.orderBookIndex(msg.port, msg.channel, msg.amountDenom, msg.priceDenom);
    RemoveDeletesExactlyThatId(s.sellOrderBooks[index].book, msg.orderID);
  }
}

=== FILE: order_book.dfy ===
/**
  The OrderBook primitive beneath both trading sides: lookup and removal by
  id, and appending a new order. Where `appendOrder` inserts is decided by
  the book's ordering, which is left to `Host.insertPosition`; no sort
  direction is assumed anywhere in the model.
 */
module Books {
  import opened Int32
  import opened Types

  /** Two orders that differ at most in their amount. */
  predicate SameOrder(a: Order, b: Order) {
    a.id == b.id && a.creator == b.creator && a.price == b.price
  }

  /** Every live order holds a positive amount. */
  ghost predicate AllPositive(orders: seq<Order>) {
    forall i :: 0 <= i < |orders| ==> orders[i].amount > 0
  }

  ghost predicate UniqueIds(orders: seq<Order>) {
    forall i, j :: 0 <= i < j < |orders| ==> orders[i].id != orders[j].id
  }

  ghost predicate HasId(orders: seq<Order>, id: Int32) {
    exists i :: 0 <= i < |orders| && orders[i].id == id
  }

  /** Total base units of a list of orders. */
  function SumAmount(orders: seq<Order>): int {
    if |orders| == 0 then 0 else orders[0].amount + SumAmount(orders[1..])
  }

  /** Total quote value (amount times price, exactly) of a list of orders. */
  function SumValue(orders: seq<Order>): int {
    if |orders| == 0 then 0 else orders[0].amount * orders[0].price + SumValue(orders[1..])
  }

  /*
    Shared by both matching engines, whose books keep their top (the best
    bid, resp. the best ask) as the last element.
   */

  /** What remains in the book of the resting order `o` after `taken` of its units were consumed. */
  function LeftOver(o: Order, taken: int): seq<Order> {
    var rest := Wrap32(o.amount - taken);
    if rest == 0 then [] else [o.(amount := rest)]
  }

  /** What survives of a live order after part of it is taken is still live. */
  lemma LeftOverPositive(below: seq<Order>, top: Order, taken: int)
    requires AllPositive(below)
    requires 0 <= taken <= top.amount
    ensures AllPositive(below + LeftOver(top, taken))
  {
  }

  /** Fragment i was cut from the i-th order counted from the top: same id, creator and price, and no more units than it held. */
  ghost predicate TakenFromTop(orders: seq<Order>, liquidated: seq<Order>) {
    && |liquidated| <= |orders|
    && forall i :: 0 <= i < |liquidated| ==>
         SameOrder(liquidated[i], orders[|orders| - 1 - i]) && liquidated[i].amount <= orders[|orders| - 1 - i].amount
  }

  /** The first n fragments consumed their resting orders whole. */
  ghost predicate WhollyTaken(orders: seq<Order>, liquidated: seq<Order>, n: nat)
    requires n <= |liquidated| <= |orders|
  {
    forall i :: 0 <= i < n ==> liquidated[i] == orders[|orders| - 1 - i]
  }

  /** Position of the first order carrying `id`. */
  function IndexOfId(orders: seq<Order>, id: Int32): (r: Option<nat>)
    ensures r.Some? ==> r.value < |orders| && orders[r.value].id == id
    ensures r.Some? ==> forall j :: 0 <= j < r.value ==> orders[j].id != id
    ensures r.None? <==> !HasId(orders, id)
  {
    if |orders| == 0 then None
    else if orders[0].id == id then Some(0)
    else match IndexOfId(orders[1..], id)
      case None => None
      case Some(k) => Some(k + 1)
  }

  /** `GetOrderFromID`: the order with that id, or not found. */
  function GetOrderFromId(book: OrderBook, id: Int32): (r: Option<Order>)
    ensures r.Some? ==> r.value in book.orders && r.value.id == id
    ensures r.None? <==> !HasId(book.orders, id)
  {
    match IndexOfId(book.orders, id)
    case None => None
    case Some(i) => Some(book.orders[i])
  }

  /** `RemoveOrderFromID`: deletes the order with that id, or not found. */
  function RemoveOrderFromId(book: OrderBook, id: Int32): (r: Option<OrderBook>)
    ensures r.None? <==> !HasId(book.orders, id)
    ensures r.Some? ==> r.value.idCount == book.idCount
    ensures r.Some? ==> |r.value.orders| == |book.orders| - 1
    ensures r.Some? ==> exists i :: 0 <= i < |book.orders| && book.orders[i].id == id &&
                                    r.value.orders == book.orders[..i] + book.orders[i + 1..]
  {
    match IndexOfId(book.orders, id)
    case None => None
    case Some(i) => Some(book.(orders := book.orders[..i] + book.orders[i + 1..]))
  }

  /** In a book whose ids are unique, removal leaves no order with that id and keeps every other order. */
  lemma RemoveDeletesExactlyThatId(book: OrderBook, id: Int32)
    requires UniqueIds(book.orders)
    requires HasId(book.orders, id)
    ensures RemoveOrderFromId(book, id).Some?
    ensures !HasId(RemoveOrderFromId(book, id).value.orders, id)
    ensures forall o :: o in book.orders && o.id != id ==> o in RemoveOrderFromId(book, id).value.orders
    ensures forall o :: o in RemoveOrderFromId(book, id).value.orders ==> o in book.orders
  {
    var i := IndexOfId(book.orders, id).value;
    var rest := RemoveOrderFromId(book, id).value.orders;
    assert rest == book.orders[..i] + book.orders[i + 1..];
    forall k | 0 <= k < |rest|
      ensures rest[k].id != id
    {
      if k < i {
        assert rest[k] == book.orders[k];
      } else {
        assert rest[k] == book.orders[k + 1];
      }
    }
    forall o | o in book.orders && o.id != id
      ensures o in rest
    {
      var k :| 0 <= k < |book.orders| && book.orders[k] == o;
      if k < i {
        assert rest[k] == o;
      } else {
        assert k != i;
        assert rest[k - 1] == o;
      }
    }
  }

  /**
    `appendOrder`: rejects a non-positive amount or price; otherwise gives
    the new order the next id and inserts it where the book's ordering puts it.
   */
  function AppendOrder(host: Host, book: OrderBook, creator: Account, amount: Int32, price: Int32): (r: Option<OrderBook>)
    ensures r.None? <==> amount <= 0 || price <= 0
    ensures r.Some? ==> r.value.idCount == Wrap32(book.idCount + 1)
    ensures r.Some? ==> multiset(r.value.orders) == multiset(book.orders) + multiset{Order(book.idCount, creator, amount, price)}
  {
    if amount <= 0 || price <= 0 then None
    else
      var o := Order(book.idCount, creator, amount, price);
      var i := if host.insertPosition(book.orders, o) <= |book.orders| then host.insertPosition(book.orders, o) else |book.orders|;
      assert book.orders == book.orders[..i] + book.orders[i..];
      Some(OrderBook(Wrap32(book.idCount + 1), book.orders[..i] + [o] + book.orders[i..]))
  }
}

=== FILE: sell_order.dfy ===
/**
  The sell-order packet. On the counterparty chain it is matched against
  the buy book of the pair and the bidders are paid (`OnRecvSellOrderPacket`);
  back on the origin chain the acknowledgement either refunds the seller
  (error) or rests the unsold remainder in the sell book and pays out the
  gain (result). A timeout does nothing: its logic is still to be written.
 */
module SellOrder {
  import opened Int32
  import opened Types
  import opened Books
  import opened BuyBook
  import opened Bank
  import opened Mint
  import opened DenomResolver
  import opened Keeper

  /** One payment per liquidated bid: its creator receives the units of the sold asset taken from the sell order. */
  function SellPayments(liquidated: seq<Order>): (p: seq<Payment>)
    ensures |p| == |liquidated|
    ensures forall i :: 0 <= i < |p| ==> p[i] == Payment(liquidated[i].creator, liquidated[i].amount)
    decreases |liquidated|
  {
    if |liquidated| == 0 then []
    else [Payment(liquidated[0].creator, liquidated[0].amount)] + SellPayments(liquidated[1..])
  }

  /** Bidder i is paid the amount of fragment i, and the payments add up to the units sold. */
  lemma {:induction false} SellPaymentsPayEachBidder(liquidated: seq<Order>)
    ensures var p := SellPayments(liquidated);
            && |p| == |liquidated|
            && Total(p) == SumAmount(liquidated)
            && forall i :: 0 <= i < |p| ==> p[i] == Payment(liquidated[i].creator, liquidated[i].amount)
    decreases |liquidated|
  {
    if |liquidated| > 0 {
      SellPaymentsPayEachBidder(liquidated[1..]);
    }
  }

  /**
    A sell order received to the end: the pair's buy book exists, the
    acknowledgement reports the fill of the order against it, the book is
    stored as the fill left it, and every bidder reached was paid its
    fragment in `denom`, which therefore is a valid denomination.
   */
  ghost predicate SellReceived(host: Host, s: State, packet: Packet, data: SellOrderPacketData, denom: Denom,
                               s': State, ack: SellOrderPacketAck) {
    && host.validSellPacket(data)
    && PairIndex(host, packet, data.amountDenom, data.priceDenom) in s.buyOrderBooks
    && var book := s.buyOrderBooks[PairIndex(host, packet, data.amountDenom, data.priceDenom)];
    && var fill := FillSellOrder(book.book.orders, Incoming(data.amount, data.price));
    && ack == SellOrderPacketAck(fill.remaining.amount, fill.gain)
    && s'.buyOrderBooks == s.buyOrderBooks[book.index := book.(book := book.book.(orders := fill.book))]
    && PaidOut(host, s.bank, s'.bank, packet.destinationPort, packet.destinationChannel, denom, SellPayments(fill.liquidated))
    && (|fill.liquidated| > 0 ==> host.validDenom(denom))
  }

  /**
    The body of `OnRecvSellOrderPacket`, with the denomination the bidders
    are paid in as a parameter: validate, find the buy book of the pair,
    fill the order against it, pay every liquidated bid on the destination
    (port, channel), and store the book once everyone is paid.
   */
  function ReceiveSellOrder(host: Host, s: State, packet: Packet, data: SellOrderPacketData, denom: Denom): (r: Outcome<State, SellOrderPacketAck>)
    ensures !host.validSellPacket(data) ==> r == Fail(s, InvalidPacket)
    ensures host.validSellPacket(data) && PairIndex(host, packet, data.amountDenom, data.priceDenom) !in s.buyOrderBooks ==>
              r == Fail(s, PairNotFound)
    ensures r.Fail? ==> r.state.buyOrderBooks == s.buyOrderBooks
    ensures !r.Panic? ==> r.state.sellOrderBooks == s.sellOrderBooks && r.state.denomTraces == s.denomTraces
    ensures r.Ok? ==> SellReceived(host, s, packet, data, denom, r.state, r.value)
  {
    if !host.validSellPacket(data) then Fail(s, InvalidPacket)
    else
      var index := PairIndex(host, packet, data.amountDenom, data.priceDenom);
      if index !in s.buyOrderBooks then Fail(s, PairNotFound)
      else
        var book := s.buyOrderBooks[index];
        var fill := FillSellOrder(book.book.orders, Incoming(data.amount, data.price));
        var ack := SellOrderPacketAck(fill.remaining.amount, fill.gain);
        match PayAll(host, s.bank, packet.destinationPort, packet.destinationChannel, denom, SellPayments(fill.liquidated))
        case Ok(b, _) =>
          PayAllOkPaidOut(host, s.bank, packet.destinationPort, packet.destinationChannel, denom, SellPayments(fill.liquidated));
          Ok(SetBuyOrderBook(s.(bank := b), book.(book := book.book.(orders := fill.book))), ack)
        case Fail(b, e) => Fail(s.(bank := b), e)
        case Panic(why) => Panic(why)
  }

  /**
    `OnRecvSellOrderPacket` as written: the bidders are paid in the original
    denomination when the sold asset came back through this channel, and in
    "" otherwise, because the voucher computed for that case is discarded.
   */
  function OnRecvSellOrderPacket(host: Host, s: State, packet: Packet, data: SellOrderPacketData): (r: Outcome<State, SellOrderPacketAck>)
    ensures !host.validSellPacket(data) ==> r == Fail(s, InvalidPacket)
    ensures host.validSellPacket(data) && PairIndex(host, packet, data.amountDenom, data.priceDenom) !in s.buyOrderBooks ==>
              r == Fail(s, PairNotFound)
    ensures r.Fail? ==> r.state.buyOrderBooks == s.buyOrderBooks
    ensures !r.Panic? ==> r.state.sellOrderBooks == s.sellOrderBooks && r.state.denomTraces == s.denomTraces
    ensures r.Ok? ==> SellReceived(host, s, packet, data, OriginalDenom(s.denomTraces, packet.sourcePort, packet.sourceChannel, data.amountDenom).0,
                                   r.state, r.value)
    ensures r.Ok? && !host.validDenom("") && PairIndex(host, packet, data.amountDenom, data.priceDenom) in s.buyOrderBooks
            && |FillSellOrder(s.buyOrderBooks[PairIndex(host, packet, data.amountDenom, data.priceDenom)].book.orders,
                              Incoming(data.amount, data.price)).liquidated| > 0
            ==> OriginalDenom(s.denomTraces, packet.sourcePort, packet.sourceChannel, data.amountDenom).1
  {
    ReceiveSellOrder(host, s, packet, data, OriginalDenom(s.denomTraces, packet.sourcePort, packet.sourceChannel, data.amountDenom).0)
  }

  /** `OnRecvSellOrderPacket` paying in the voucher of the sold asset when it is not a returning one. */
  function OnRecvSellOrderPacketResolved(host: Host, s: State, packet: Packet, data: SellOrderPacketData): (r: Outcome<State, SellOrderPacketAck>)
    ensures !host.validSellPacket(data) ==> r == Fail(s, InvalidPacket)
    ensures host.validSellPacket(data) && PairIndex(host, packet, data.amountDenom, data.priceDenom) !in s.buyOrderBooks ==>
              r == Fail(s, PairNotFound)
    ensures r.Fail? ==> r.state.buyOrderBooks == s.buyOrderBooks
    ensures !r.Panic? ==> r.state.sellOrderBooks == s.sellOrderBooks && r.state.denomTraces == s.denomTraces
    ensures r.Ok? ==> SellReceived(host, s, packet, data,
                                   PayDenom(host, s.denomTraces, packet.sourcePort, packet.sourceChannel,
                                            packet.sourcePort, packet.sourceChannel, data.amountDenom),
                                   r.state, r.value)
  {
    ReceiveSellOrder(host, s, packet, data,
                     PayDenom(host, s.denomTraces, packet.sourcePort, packet.sourceChannel,
                              packet.sourcePort, packet.sourceChannel, data.amountDenom))
  }

  /** Under a live book whose bidders all decode, every bidder the fill reaches can be paid its fragment. */
  lemma SellPaymentsPayable(host: Host, orders: seq<Order>, order: Order)
    requires AllPositive(orders) && order.amount > 0
    requires forall i :: 0 <= i < |orders| ==> host.validAddress(orders[i].creator)
    ensures var fill := FillSellOrder(orders, order);
            && Payable(host, SellPayments(fill.liquidated))
            && 0 <= Total(SellPayments(fill.liquidated)) <= order.amount
            && fill.remaining.amount + Total(SellPayments(fill.liquidated)) == order.amount
  {
    var fill := FillSellOrder(orders, order);
    FillSellOrderMeaning(orders, order);
    SellPaymentsPayEachBidder(fill.liquidated);
    var payments := SellPayments(fill.liquidated);
    forall i | 0 <= i < |payments|
      ensures host.validAddress(payments[i].receiver) && payments[i].amount >= 0
    {
      assert payments[i] == Payment(fill.liquidated[i].creator, fill.liquidated[i].amount);
      assert SameOrder(fill.liquidated[i], orders[|orders| - 1 - i]);
    }
  }

  /**
    A valid sell order against a live buy book whose bidders all decode,
    paid in a valid denomination that the destination escrow covers (or a
    voucher): the acknowledgement reports the fill (units left plus units
    sold make the order's amount, and the gain is the wrapped value of the
    fragments at the bids' prices), every bidder is paid its fragment, and
    the pair's book becomes what the fill left behind.
   */
  lemma RecvSellSettles(host: Host, s: State, packet: Packet, data: SellOrderPacketData, denom: Denom)
    requires host.validSellPacket(data) && data.amount > 0
    requires PairIndex(host, packet, data.amountDenom, data.priceDenom) in s.buyOrderBooks
    requires var orders := s.buyOrderBooks[PairIndex(host, packet, data.amountDenom, data.priceDenom)].book.orders;
             && AllPositive(orders)
             && forall i :: 0 <= i < |orders| ==> host.validAddress(orders[i].creator)
    requires host.validDenom(denom)
    requires IsIBCToken(denom) || data.amount <= Balance(s.bank, host.escrowAddress(packet.destinationPort, packet.destinationChannel), denom)
    ensures var book := s.buyOrderBooks[PairIndex(host, packet, data.amountDenom, data.priceDenom)];
            var fill := FillSellOrder(book.book.orders, Incoming(data.amount, data.price));
            var r := ReceiveSellOrder(host, s, packet, data, denom);
            && r.Ok?
            && r.value.remainingAmount + SumAmount(fill.liquidated) == data.amount
            && r.value.gain == Wrap32(SumValue(fill.liquidated))
            && PaidOut(host, s.bank, r.state.bank, packet.destinationPort, packet.destinationChannel, denom, SellPayments(fill.liquidated))
            && r.state.buyOrderBooks == s.buyOrderBooks[book.index := book.(book := book.book.(orders := fill.book))]
  {
    var book := s.buyOrderBooks[PairIndex(host, packet, data.amountDenom, data.priceDenom)];
    var order := Incoming(data.amount, data.price);
    var fill := FillSellOrder(book.book.orders, order);
    FillSellOrderMeaning(book.book.orders, order);
    SellPaymentsPayable(host, book.book.orders, order);
    SellPaymentsPayEachBidder(fill.liquidated);
    PayAllPaysEveryone(host, s.bank, packet.destinationPort, packet.destinationChannel, denom, SellPayments(fill.liquidated));
  }

  /**
    As written, a sell order whose asset did not come back through this
    channel panics as soon as one bid matches: the bidder is to be paid in
    "", which is no denomination.
   */
  lemma RecvSellUnresolvedDenomPanics(host: Host, s: State, packet: Packet, data: SellOrderPacketData)
    requires !host.validDenom("")
    requires host.validSellPacket(data)
    requires PairIndex(host, packet, data.amountDenom, data.priceDenom) in s.buyOrderBooks
    requires var orders := s.buyOrderBooks[PairIndex(host, packet, data.amountDenom, data.priceDenom)].book.orders;
             && |orders| > 0
             && orders[|orders| - 1].price >= data.price
             && host.validAddress(orders[|orders| - 1].creator)
    requires !OriginalDenom(s.denomTraces, packet.sourcePort, packet.sourceChannel, data.amountDenom).1
    ensures OnRecvSellOrderPacket(host, s, packet, data).Panic?
  {
    var orders := s.buyOrderBooks[PairIndex(host, packet, data.amountDenom, data.priceDenom)].book.orders;
    var order := Incoming(data.amount, data.price);
    var fill := FillSellOrder(orders, order);
    var step := LiquidateFromSellOrder(orders, order);
    FillSellOrderFromUnfold(orders, order, 0);
    assert fill.liquidated[0] == step.liquidated;
    var payments := SellPayments(fill.liquidated);
    assert payments[0] == Payment(step.liquidated.creator, step.liquidated.amount);
  }

  /** When the sold asset is a returning one, the two receive handlers agree. */
  lemma RecvSellResolvedAgrees(host: Host, s: State, packet: Packet, data: SellOrderPacketData)
    requires OriginalDenom(s.denomTraces, packet.sourcePort, packet.sourceChannel, data.amountDenom).1
    ensures OnRecvSellOrderPacket(host, s, packet, data) == OnRecvSellOrderPacketResolved(host, s, packet, data)
  {
  }

  /**
    Paying in the voucher when the asset is not a returning one settles
    every valid sell order against a live book: whatever the denomination
    traces say, the receive succeeds and every bidder is paid.
   */
  lemma RecvSellResolvedSettles(host: Host, s: State, packet: Packet, data: SellOrderPacketData)
    requires host.validSellPacket(data) && data.amount > 0
    requires PairIndex(host, packet, data.amountDenom, data.priceDenom) in s.buyOrderBooks
    requires var orders := s.buyOrderBooks[PairIndex(host, packet, data.amountDenom, data.priceDenom)].book.orders;
             && AllPositive(orders)
             && forall i :: 0 <= i < |orders| ==> host.validAddress(orders[i].creator)
    requires var denom := PayDenom(host, s.denomTraces, packet.sourcePort, packet.sourceChannel,
                                   packet.sourcePort, packet.sourceChannel, data.amountDenom);
             && host.validDenom(denom)
             && (IsIBCToken(denom) || data.amount <= Balance(s.bank, host.escrowAddress(packet.destinationPort, packet.destinationChannel), denom))
    ensures var denom := PayDenom(host, s.denomTraces, packet.sourcePort, packet.sourceChannel,
                                  packet.sourcePort, packet.sourceChannel, data.amountDenom);
            var fill := FillSellOrder(s.buyOrderBooks[PairIndex(host, packet, data.amountDenom, data.priceDenom)].book.orders,
                                      Incoming(data.amount, data.price));
            var r := OnRecvSellOrderPacketResolved(host, s, packet, data);
            && r.Ok?
            && PaidOut(host, s.bank, r.state.bank, packet.destinationPort, packet.destinationChannel, denom, SellPayments(fill.liquidated))
  {
    RecvSellSettles(host, s, packet, data,
                    PayDenom(host, s.denomTraces, packet.sourcePort, packet.sourceChannel,
                             packet.sourcePort, packet.sourceChannel, data.amountDenom));
  }

  /** The error acknowledgement: the seller gets back the sold amount on the source (port, channel). */
  function RefundSeller(host: Host, s: State, packet: Packet, data: SellOrderPacketData): (r: Outcome<State, ()>)
    ensures !host.validAddress(data.seller) ==> r == Fail(s, InvalidAddress)
    ensures r.Fail? ==> r.state == s
    ensures r.Ok? ==> r.state == s.(bank := r.state.bank)
    ensures r.Ok? <==> && host.validAddress(data.seller) && host.validDenom(data.amountDenom) && data.amount >= 0
                       && CanCredit(host, s.bank, packet.sourcePort, packet.sourceChannel, Coin(data.amountDenom, data.amount as nat))
    ensures r.Ok? ==> Credited(host, s.bank, r.state.bank, packet.sourcePort, packet.sourceChannel, data.seller, Coin(data.amountDenom, data.amount))
  {
    MintTo(host, s, packet.sourcePort, packet.sourceChannel, data.seller, data.amountDenom, data.amount)
  }

  /** The denomination the gain is paid in: the original price denomination, or its voucher across the destination channel. */
  function GainDenom(host: Host, s: State, packet: Packet, data: SellOrderPacketData): (d: Denom)
    ensures OriginalDenom(s.denomTraces, packet.sourcePort, packet.sourceChannel, data.priceDenom).1 ==>
              d == s.denomTraces[data.priceDenom].origin
    ensures !OriginalDenom(s.denomTraces, packet.sourcePort, packet.sourceChannel, data.priceDenom).1 ==>
              d == VoucherDenom(host, packet.destinationPort, packet.destinationChannel, data.priceDenom)
  {
    PayDenom(host, s.denomTraces, packet.sourcePort, packet.sourceChannel,
             packet.destinationPort, packet.destinationChannel, data.priceDenom)
  }

  /**
    A gain the seller can be paid on the source (port, channel): nothing to
    pay, or a decodable seller and a valid `GainDenom` that the source
    escrow covers when it is native.
   */
  ghost predicate GainPayable(host: Host, s: State, packet: Packet, data: SellOrderPacketData, gain: Int32) {
    gain > 0 ==>
      && host.validAddress(data.seller)
      && host.validDenom(GainDenom(host, s, packet, data))
      && CanCredit(host, s.bank, packet.sourcePort, packet.sourceChannel, Coin(GainDenom(host, s, packet, data), gain))
  }

  /**
    The seller's unsold remainder rests in the pair's sell book as a new
    order under the book's next id at the original price, and no other
    sell book changed.
   */
  ghost predicate RemainderRested(host: Host, s: State, packet: Packet, data: SellOrderPacketData, remaining: Int32, s': State) {
    && PairIndex(host, packet, data.amountDenom, data.priceDenom) in s.sellOrderBooks
    && var book := s.sellOrderBooks[PairIndex(host, packet, data.amountDenom, data.priceDenom)];
    && book.index in s'.sellOrderBooks
    && multiset(s'.sellOrderBooks[book.index].book.orders)
         == multiset(book.book.orders) + multiset{Order(book.book.idCount, data.seller, remaining, data.price)}
    && (forall k :: k in s.sellOrderBooks && k != book.index ==> k in s'.sellOrderBooks && s'.sellOrderBooks[k] == s.sellOrderBooks[k])
  }

  /** Pays a positive gain to the seller, in `GainDenom`, on the source (port, channel). */
  function PayGain(host: Host, s: State, packet: Packet, data: SellOrderPacketData, gain: Int32): (r: Outcome<State, ()>)
    ensures gain <= 0 ==> r == Ok(s, ())
    ensures gain > 0 && !host.validAddress(data.seller) ==> r == Fail(s, InvalidAddress)
    ensures r.Ok? <==> GainPayable(host, s, packet, data, gain)
    ensures r.Fail? ==> r.state == s
    ensures r.Ok? ==> r.state == s.(bank := r.state.bank)
    ensures r.Ok? && gain > 0 ==>
              Credited(host, s.bank, r.state.bank, packet.sourcePort, packet.sourceChannel, data.seller,
                       Coin(GainDenom(host, s, packet, data), gain))
  {
    if gain <= 0 then Ok(s, ())
    else MintTo(host, s, packet.sourcePort, packet.sourceChannel, data.seller, GainDenom(host, s, packet, data), gain)
  }

  /**
    The result acknowledgement: the sell book of the pair must exist; an
    unsold remainder rests in it as a new order of the seller at the
    original price, and then a positive gain is paid to the seller. A
    failing payout leaves the remainder rested.
   */
  function SettleSellAck(host: Host, s: State, packet: Packet, data: SellOrderPacketData, ack: SellOrderPacketAck): (r: Outcome<State, ()>)
    ensures PairIndex(host, packet, data.amountDenom, data.priceDenom) !in s.sellOrderBooks ==> r.Panic?
    ensures r.Ok? <==> && PairIndex(host, packet, data.amountDenom, data.priceDenom) in s.sellOrderBooks
                       && (ack.remainingAmount > 0 ==> data.price > 0)
                       && GainPayable(host, s, packet, data, ack.gain)
    ensures (&& PairIndex(host, packet, data.amountDenom, data.priceDenom) in s.sellOrderBooks
             && ack.remainingAmount <= 0 && ack.gain <= 0) ==> r == Ok(s, ())
    ensures (&& PairIndex(host, packet, data.amountDenom, data.priceDenom) in s.sellOrderBooks
             && ack.remainingAmount > 0 && data.price <= 0) ==> r == Fail(s, InvalidOrder)
    ensures !r.Panic? ==> r.state.buyOrderBooks == s.buyOrderBooks && r.state.denomTraces == s.denomTraces
    ensures r.Fail? ==> r.state.bank == s.bank
    ensures !r.Panic? && ack.remainingAmount <= 0 ==> r.state.sellOrderBooks == s.sellOrderBooks
    ensures !r.Panic? && ack.remainingAmount > 0 && data.price > 0 ==>
              RemainderRested(host, s, packet, data, ack.remainingAmount, r.state)
    ensures r.Ok? && ack.gain <= 0 ==> r.state.bank == s.bank
    ensures r.Ok? && ack.gain > 0 ==>
              Credited(host, s.bank, r.state.bank, packet.sourcePort, packet.sourceChannel, data.seller,
                       Coin(GainDenom(host, s, packet, data), ack.gain))
  {
    var index := PairIndex(host, packet, data.amountDenom, data.priceDenom);
    if index !in s.sellOrderBooks then Panic("sell order book must exist")
    else
      var book := s.sellOrderBooks[index];
      if ack.remainingAmount > 0 then
        match AppendOrder(host, book.book, data.seller, ack.remainingAmount, data.price)
        case None => Fail(s, InvalidOrder)
        case Some(rested) => PayGain(host, SetSellOrderBook(s, book.(book := rested)), packet, data, ack.gain)
      else PayGain(host, s, packet, data, ack.gain)
  }

  /** `OnAcknowledgementSellOrderPacket`: refund on an error, settle on a result. */
  function OnAcknowledgementSellOrderPacket(host: Host, s: State, packet: Packet, data: SellOrderPacketData,
                                            ack: Acknowledgement<SellOrderPacketAck>): (r: Outcome<State, ()>)
    ensures ack.AckError? && !host.validAddress(data.seller) ==> r == Fail(s, InvalidAddress)
    ensures ack.AckError? && r.Fail? ==> r.state == s
    ensures ack.AckError? ==>
              (r.Ok? <==> && host.validAddress(data.seller) && host.validDenom(data.amountDenom) && data.amount >= 0
                          && CanCredit(host, s.bank, packet.sourcePort, packet.sourceChannel, Coin(data.amountDenom, data.amount as nat)))
    ensures ack.AckError? && r.Ok? ==>
              && r.state == s.(bank := r.state.bank)
              && data.amount >= 0
              && Credited(host, s.bank, r.state.bank, packet.sourcePort, packet.sourceChannel, data.seller, Coin(data.amountDenom, data.amount))
    ensures ack.AckResult? && PairIndex(host, packet, data.amountDenom, data.priceDenom) !in s.sellOrderBooks ==> r.Panic?
    ensures ack.AckResult? ==>
              (r.Ok? <==> && PairIndex(host, packet, data.amountDenom, data.priceDenom) in s.sellOrderBooks
                          && (ack.result.remainingAmount > 0 ==> data.price > 0)
                          && GainPayable(host, s, packet, data, ack.result.gain))
    ensures ack.AckResult? && !r.Panic? && ack.result.remainingAmount > 0 && data.price > 0 ==>
              RemainderRested(host, s, packet, data, ack.result.remainingAmount, r.state)
    ensures ack.AckResult? && r.Ok? && ack.result.remainingAmount > 0 ==>
              RemainderRested(host, s, packet, data, ack.result.remainingAmount, r.state)
    ensures ack.AckResult? && r.Ok? && ack.result.gain > 0 ==>
              Credited(host, s.bank, r.state.bank, packet.sourcePort, packet.sourceChannel, data.seller,
                       Coin(GainDenom(host, s, packet, data), ack.result.gain))
    ensures !r.Panic? ==> r.state.buyOrderBooks == s.buyOrderBooks && r.state.denomTraces == s.denomTraces
  {
    match ack
    case AckError(_) => RefundSeller(host, s, packet, data)
    case AckResult(result) => SettleSellAck(host, s, packet, data, result)
  }

  /** `OnTimeoutSellOrderPacket` as written: the timeout logic is left to do, so nothing happens. */
  function OnTimeoutSellOrderPacket(s: State, packet: Packet, data: SellOrderPacketData): (r: Outcome<State, ()>)
    ensures r.Ok? && r.state == s
  {
    Ok(s, ())
  }
}

=== FILE: sell_order_book.dfy ===
/**
  Matching an incoming buy order against a sell book. The book's top, its
  lowest ask, is the last element; one liquidation step consumes (part of)
  that ask, and `FillBuyOrder` repeats the step until the buy order is
  filled or no ask is cheap enough. The proceeds of a step, its purchase,
  are counted in base units, with no price factor.
 */
module SellBook {
  import opened Int32
  import opened Types
  import opened Books

  /** Outcome of one matching step: the updated incoming order, the fragment
      of the resting order it consumed, the units bought, and the book after. */
  datatype Liquidation = Liquidation(remaining: Order, liquidated: Order, purchase: Int32, matched: bool, filled: bool, book: seq<Order>)

  /** Outcome of the whole fill: fragments in the order they were consumed. */
  datatype Fill = Fill(remaining: Order, liquidated: seq<Order>, purchase: Int32, filled: bool, book: seq<Order>)

  /** No ask in the book is at or below the buy order's price. */
  predicate NoMatch(orders: seq<Order>, order: Order) {
    |orders| == 0 || order.price < orders[|orders| - 1].price
  }

  /** `LiquidateFromBuyOrder`: one matching step against the lowest ask. */
  function LiquidateFromBuyOrder(orders: seq<Order>, order: Order): (r: Liquidation)
    ensures !r.matched <==> NoMatch(orders, order)
    ensures !r.matched ==> r == Liquidation(order, ZeroOrder, 0, false, false, orders)
    ensures r.matched ==>
      var top := orders[|orders| - 1];
      && SameOrder(r.remaining, order)
      && SameOrder(r.liquidated, top)
      && r.liquidated.price <= order.price
      && r.purchase == r.liquidated.amount
      && (r.filled <==> top.amount >= order.amount)
      && (r.filled ==> && r.remaining.amount == 0
                       && r.liquidated.amount == order.amount
                       && r.book == orders[..|orders| - 1] + LeftOver(top, order.amount))
      && (!r.filled ==> && r.liquidated == top
                        && r.remaining.amount == Wrap32(order.amount - top.amount)
                        && r.book == orders[..|orders| - 1])
  {
    var count := |orders|;
    if count == 0 then Liquidation(order, ZeroOrder, 0, false, false, orders)
    else
      var lowestAsk := orders[count - 1];
      if order.price < lowestAsk.price then Liquidation(order, ZeroOrder, 0, false, false, orders)
      else if lowestAsk.amount >= order.amount then
        var left := Wrap32(lowestAsk.amount - order.amount);
        var book := if left == 0 then orders[..count - 1] else orders[..count - 1] + [lowestAsk.(amount := left)];
        Liquidation(order.(amount := 0), lowestAsk.(amount := order.amount),
                    order.amount, true, true, book)
      else
        Liquidation(order.(amount := Wrap32(order.amount - lowestAsk.amount)), lowestAsk,
                    lowestAsk.amount, true, false, orders[..count - 1])
  }

  /**
    The `FillBuyOrder` loop, entered with the purchase accumulated so far: it
    stops at the first step that does not match or that fills the order.
   */
  function FillBuyOrderFrom(orders: seq<Order>, order: Order, totalPurchase: Int32): (r: Fill)
    decreases |orders|
  {
    var step := LiquidateFromBuyOrder(orders, order);
    if !step.matched then Fill(step.remaining, [], totalPurchase, step.filled, step.book)
    else
      var total := Wrap32(totalPurchase + step.purchase);
      if step.filled then Fill(step.remaining, [step.liquidated], total, true, step.book)
      else
        var rest := FillBuyOrderFrom(step.book, step.remaining, total);
        var liquidated := [step.liquidated] + rest.liquidated;
        Fill(rest.remaining, liquidated, rest.purchase, rest.filled, rest.book)
  }

  /**
    Where a fill stopped and what it left behind: unless it filled the order
    it stopped at an ask too dear for the order (or an empty book), every ask
    it consumed was consumed whole and the book is the untouched rest; when
    it filled the order, only the last ask it reached may survive, reduced by
    the units taken from it.
   */
  ghost predicate StoppedAsDescribed(orders: seq<Order>, r: Fill) {
    && |r.liquidated| <= |orders|
    && (!r.filled ==>
        && WhollyTaken(orders, r.liquidated, |r.liquidated|)
        && r.book == orders[..|orders| - |r.liquidated|]
        && NoMatch(r.book, r.remaining))
    && (r.filled ==>
        && |r.liquidated| > 0
        && r.remaining.amount == 0
        && WhollyTaken(orders, r.liquidated, |r.liquidated| - 1)
        && r.book == orders[..|orders| - |r.liquidated|]
                     + LeftOver(orders[|orders| - |r.liquidated|], r.liquidated[|r.liquidated| - 1].amount))
  }

  lemma {:induction false} FillBuyOrderShape(orders: seq<Order>, order: Order, totalPurchase: Int32)
    ensures StoppedAsDescribed(orders, FillBuyOrderFrom(orders, order, totalPurchase))
    decreases |orders|
  {
    var r := FillBuyOrderFrom(orders, order, totalPurchase);
    var step := LiquidateFromBuyOrder(orders, order);
    var n := |orders|;
    if !step.matched {
      assert orders[..n - 0] == orders;
    } else if step.filled {
      assert r.liquidated == [step.liquidated];
      assert r.liquidated[|r.liquidated| - 1].amount == order.amount;
      assert r.book == orders[..n - 1] + LeftOver(orders[n - 1], order.amount);
    } else {
      var total := Wrap32(totalPurchase + step.purchase);
      var rest := FillBuyOrderFrom(step.book, step.remaining, total);
      FillBuyOrderShape(step.book, step.remaining, total);
      ShapeAfterWholeStep(orders, rest, r);
    }
  }

  /** Prepending a wholly consumed top ask to a fill of the rest of the book keeps the description. */
  lemma ShapeAfterWholeStep(orders: seq<Order>, rest: Fill, r: Fill)
    requires |orders| > 0
    requires StoppedAsDescribed(orders[..|orders| - 1], rest)
    requires r == rest.(liquidated := [orders[|orders| - 1]] + rest.liquidated)
    ensures StoppedAsDescribed(orders, r)
  {
    var n := |orders|;
    var book := orders[..n - 1];
    var k := |r.liquidated|;
    assert book[..|book| - |rest.liquidated|] == orders[..n - k];
    var m := if r.filled then k - 1 else k;
    forall i | 0 <= i < m
      ensures r.liquidated[i] == orders[n - 1 - i]
    {
      if i > 0 {
        assert r.liquidated[i] == rest.liquidated[i - 1];
        assert book[|book| - 1 - (i - 1)] == orders[n - 1 - i];
      }
    }
    if r.filled {
      var last := rest.liquidated[|rest.liquidated| - 1];
      assert r.liquidated[k - 1] == last;
      assert book[|book| - |rest.liquidated|] == orders[n - k];
    }
  }

  /** `FillBuyOrder`: the loop entered with no purchase yet. */
  function FillBuyOrder(orders: seq<Order>, order: Order): Fill {
    FillBuyOrderFrom(orders, order, 0)
  }

  /** One turn of the loop: a step that neither stops nor fills hands over to the fill of the rest. */
  lemma FillBuyOrderFromUnfold(orders: seq<Order>, order: Order, totalPurchase: Int32)
    ensures var r := FillBuyOrderFrom(orders, order, totalPurchase);
            var step := LiquidateFromBuyOrder(orders, order);
            var total := Wrap32(totalPurchase + step.purchase);
            && (!step.matched ==> r == Fill(order, [], totalPurchase, false, orders))
            && (step.matched && step.filled ==> r == Fill(step.remaining, [step.liquidated], total, true, step.book))
            && (step.matched && !step.filled ==>
                  var rest := FillBuyOrderFrom(step.book, step.remaining, total);
                  r == Fill(rest.remaining, [step.liquidated] + rest.liquidated, rest.purchase, rest.filled, rest.book))
  {
  }

  /**
    The fill works down the book from the top: fragment i was cut from the
    i-th ask counted from the top, every ask it reached was priced within
    the buyer's limit, and the incoming order keeps its id, creator and price.
   */
  lemma {:induction false} FillBuyOrderTakesFromTop(orders: seq<Order>, order: Order, totalPurchase: Int32)
    ensures var r := FillBuyOrderFrom(orders, order, totalPurchase);
            && SameOrder(r.remaining, order)
            && TakenFromTop(orders, r.liquidated)
            && forall i :: 0 <= i < |r.liquidated| ==> r.liquidated[i].price <= order.price
    decreases |orders|
  {
    var step := LiquidateFromBuyOrder(orders, order);
    FillBuyOrderFromUnfold(orders, order, totalPurchase);
    if step.matched && !step.filled {
      var total := Wrap32(totalPurchase + step.purchase);
      FillBuyOrderTakesFromTop(step.book, step.remaining, total);
      TakenAfterWholeStep(orders, order, step.remaining, FillBuyOrderFrom(step.book, step.remaining, total),
                          FillBuyOrderFrom(orders, order, totalPurchase));
    }
  }

  /** Prepending the wholly consumed top ask to a fill of the rest of the book keeps it taken from the top. */
  lemma TakenAfterWholeStep(orders: seq<Order>, order: Order, remaining: Order, rest: Fill, r: Fill)
    requires |orders| > 0 && orders[|orders| - 1].price <= order.price
    requires SameOrder(remaining, order)
    requires SameOrder(rest.remaining, remaining)
    requires TakenFromTop(orders[..|orders| - 1], rest.liquidated)
    requires forall i :: 0 <= i < |rest.liquidated| ==> rest.liquidated[i].price <= remaining.price
    requires r == Fill(rest.remaining, [orders[|orders| - 1]] + rest.liquidated, rest.purchase, rest.filled, rest.book)
    ensures SameOrder(r.remaining, order)
    ensures TakenFromTop(orders, r.liquidated)
    ensures forall i :: 0 <= i < |r.liquidated| ==> r.liquidated[i].price <= order.price
  {
    var n := |orders|;
    forall i | 0 < i < |r.liquidated|
      ensures SameOrder(r.liquidated[i], orders[n - 1 - i]) && r.liquidated[i].amount <= orders[n - 1 - i].amount
      ensures r.liquidated[i].price <= order.price
    {
      assert r.liquidated[i] == rest.liquidated[i - 1];
      assert orders[..n - 1][n - 1 - 1 - (i - 1)] == orders[n - 1 - i];
    }
  }

  /** The accumulated purchase is the (wrapped) count of all units bought. */
  lemma {:induction false} FillBuyOrderPurchase(orders: seq<Order>, order: Order, totalPurchase: Int32)
    ensures var r := FillBuyOrderFrom(orders, order, totalPurchase);
            r.purchase == Wrap32(totalPurchase + SumAmount(r.liquidated))
    decreases |orders|
  {
    var step := LiquidateFromBuyOrder(orders, order);
    if step.matched && !step.filled {
      var total := Wrap32(totalPurchase + step.purchase);
      FillBuyOrderPurchase(step.book, step.remaining, total);
      PurchaseThroughStep(orders, order, totalPurchase);
    } else {
      PurchaseAtStop(orders, order, totalPurchase);
    }
  }

  /** The purchase of a fill that stops at its first step. */
  lemma PurchaseAtStop(orders: seq<Order>, order: Order, totalPurchase: Int32)
    requires var step := LiquidateFromBuyOrder(orders, order);
             !step.matched || step.filled
    ensures var r := FillBuyOrderFrom(orders, order, totalPurchase);
            r.purchase == Wrap32(totalPurchase + SumAmount(r.liquidated))
  {
    var r := FillBuyOrderFrom(orders, order, totalPurchase);
    var step := LiquidateFromBuyOrder(orders, order);
    FillBuyOrderFromUnfold(orders, order, totalPurchase);
    if !step.matched {
      assert SumAmount(r.liquidated) == 0;
    } else {
      PurchaseAtLastStep(totalPurchase, step.purchase, step.liquidated, r);
    }
  }

  /** The purchase of a fill that goes on after its first step, given that of the rest. */
  lemma PurchaseThroughStep(orders: seq<Order>, order: Order, totalPurchase: Int32)
    requires var step := LiquidateFromBuyOrder(orders, order);
             var total := Wrap32(totalPurchase + step.purchase);
             var rest := FillBuyOrderFrom(step.book, step.remaining, total);
             && step.matched && !step.filled
             && rest.purchase == Wrap32(total + SumAmount(rest.liquidated))
    ensures var r := FillBuyOrderFrom(orders, order, totalPurchase);
            r.purchase == Wrap32(totalPurchase + SumAmount(r.liquidated))
  {
    var r := FillBuyOrderFrom(orders, order, totalPurchase);
    var step := LiquidateFromBuyOrder(orders, order);
    FillBuyOrderFromUnfold(orders, order, totalPurchase);
    var total := Wrap32(totalPurchase + step.purchase);
    var rest := FillBuyOrderFrom(step.book, step.remaining, total);
    PurchaseAfterWholeStep(totalPurchase, step.purchase, total, step.liquidated, r, rest);
  }

  /** The purchase of a fill whose one and only step filled the order. */
  lemma PurchaseAtLastStep(totalPurchase: Int32, purchase: Int32, bought: Order, r: Fill)
    requires purchase == bought.amount
    requires r.liquidated == [bought]
    requires r.purchase == Wrap32(totalPurchase + purchase)
    ensures r.purchase == Wrap32(totalPurchase + SumAmount(r.liquidated))
  {
    assert SumAmount(r.liquidated) == purchase + SumAmount([]);
    WrapCongruent(totalPurchase + purchase, totalPurchase + SumAmount(r.liquidated));
  }

  /** The purchase of a fill that first consumed one ask whole and then went on. */
  lemma PurchaseAfterWholeStep(totalPurchase: Int32, purchase: Int32, total: Int32, bought: Order, r: Fill, rest: Fill)
    requires purchase == bought.amount
    requires total == Wrap32(totalPurchase + purchase)
    requires r.purchase == rest.purchase
    requires r.liquidated == [bought] + rest.liquidated
    requires rest.purchase == Wrap32(total + SumAmount(rest.liquidated))
    ensures r.purchase == Wrap32(totalPurchase + SumAmount(r.liquidated))
  {
    assert r.liquidated[1..] == rest.liquidated;
    WrapAccumulate(totalPurchase, purchase, bought.amount, SumAmount(rest.liquidated), SumAmount(r.liquidated));
  }

  /**
    Every unit of an order of `amount` units is either liquidated or
    remains; the order is filled exactly when nothing remains, and every
    order involved is still live.
   */
  ghost predicate Conserved(amount: int, r: Fill) {
    && r.remaining.amount + SumAmount(r.liquidated) == amount
    && 0 <= r.remaining.amount <= amount
    && (r.filled <==> r.remaining.amount == 0)
    && AllPositive(r.book)
    && AllPositive(r.liquidated)
  }

  /** A positive buy order against live asks conserves its units. */
  lemma {:induction false} FillBuyOrderConserves(orders: seq<Order>, order: Order, totalPurchase: Int32)
    requires AllPositive(orders)
    requires order.amount > 0
    ensures Conserved(order.amount, FillBuyOrderFrom(orders, order, totalPurchase))
    decreases |orders|
  {
    var r := FillBuyOrderFrom(orders, order, totalPurchase);
    var step := LiquidateFromBuyOrder(orders, order);
    FillBuyOrderFromUnfold(orders, order, totalPurchase);
    if !step.matched {
      assert SumAmount(r.liquidated) == 0;
    } else {
      var n := |orders|;
      var top := orders[n - 1];
      assert top.amount > 0;
      assert AllPositive(orders[..n - 1]);
      if step.filled {
        LeftOverPositive(orders[..n - 1], top, order.amount);
        ConservedAtLastStep(order.amount, step.liquidated, r);
      } else {
        var total := Wrap32(totalPurchase + step.purchase);
        var rest := FillBuyOrderFrom(step.book, step.remaining, total);
        FillBuyOrderConserves(step.book, step.remaining, total);
        ConservedAfterWholeStep(order.amount, top, step.remaining.amount, rest, r);
      }
    }
  }

  /** A fill whose one and only step filled the order. */
  lemma ConservedAtLastStep(amount: int, bought: Order, r: Fill)
    requires amount > 0
    requires bought.amount == amount
    requires r.remaining.amount == 0 && r.filled && r.liquidated == [bought]
    requires AllPositive(r.book)
    ensures Conserved(amount, r)
  {
    assert SumAmount(r.liquidated) == amount + SumAmount([]);
  }

  /** A fill that first consumed one live order whole and then went on with the remaining units. */
  lemma ConservedAfterWholeStep(amount: int, top: Order, remaining: int, rest: Fill, r: Fill)
    requires 0 < top.amount < amount
    requires remaining == amount - top.amount
    requires Conserved(remaining, rest)
    requires r == Fill(rest.remaining, [top] + rest.liquidated, rest.purchase, rest.filled, rest.book)
    ensures Conserved(amount, r)
  {
    assert r.liquidated[1..] == rest.liquidated;
  }

  /**
    `FillBuyOrder` as a whole: the fill works down the book from the top and
    stops as described, and for a positive order against live asks the units
    are conserved, so the purchase counts the units bought exactly.
   */
  lemma FillBuyOrderMeaning(orders: seq<Order>, order: Order)
    ensures var r := FillBuyOrder(orders, order);
      && r.purchase == Wrap32(SumAmount(r.liquidated))
      && TakenFromTop(orders, r.liquidated)
      && (forall i :: 0 <= i < |r.liquidated| ==> r.liquidated[i].price <= order.price)
      && StoppedAsDescribed(orders, r)
      && (AllPositive(orders) && order.amount > 0 ==>
            && Conserved(order.amount, r)
            && r.purchase == SumAmount(r.liquidated)
            && r.purchase + r.remaining.amount == order.amount)
  {
    FillBuyOrderPurchase(orders, order, 0);
    FillBuyOrderTakesFromTop(orders, order, 0);
    FillBuyOrderShape(orders, order, 0);
    if AllPositive(orders) && order.amount > 0 {
      FillBuyOrderConserves(orders, order, 0);
    }
  }

  /** Asks 4@11 under 2@10 and an incoming buy of 5 at 11: the cheaper ask goes first, the other partly. */
  lemma FillBuyOrderExample()
    ensures var asks := [Order(0, "carol", 4, 11), Order(1, "dave", 2, 10)];
            var r := FillBuyOrder(asks, Order(0, "", 5, 11));
            && r.liquidated == [Order(1, "dave", 2, 10), Order(0, "carol", 3, 11)]
            && r.remaining.amount == 0
            && r.purchase == 5
            && r.filled
            && r.book == [Order(0, "carol", 1, 11)]
  {
  }
}

=== FILE: settlement.dfy ===
/**
  Custody across the packet round trip: what a send handler takes from the
  creator, and what the acknowledgement or the timeout of its packet gives
  back on the same (port, channel).
 */
module Settlement {
  import opened Int32
  import opened Types
  import opened Bank
  import opened Mint
  import opened Keeper
  import opened MsgServer
  import opened SellOrder
  import opened BuyOrder

  /** A packet sent on the message's (port, channel). */
  predicate SentOn(packet: Packet, port: string, channel: string) {
    packet.sourcePort == port && packet.sourceChannel == channel
  }

  /**
    A sell order sent and then refused by the counterparty is undone: the
    error acknowledgement gives the seller back exactly what the send took,
    so every balance and the supply are as before, and no book changed.
   */
  lemma SendSellThenErrorAckRestores(host: Host, s: State, msg: MsgSendSellOrder, packet: Packet, message: string)
    requires SendSellOrder(host, s, msg).Ok?
    requires SentOn(packet, msg.port, msg.channelID)
    ensures var sent := SendSellOrder(host, s, msg);
            var r := OnAcknowledgementSellOrderPacket(host, sent.state, packet, sent.value, AckError(message));
            && r.Ok?
            && SameHoldings(s.bank, r.state.bank)
            && r.state.buyOrderBooks == s.buyOrderBooks && r.state.sellOrderBooks == s.sellOrderBooks
  {
    var burn := SafeBurn(host, s.bank, msg.port, msg.channelID, msg.creator, msg.amountDenom, msg.amount);
    assert burn.Ok?;
    var sent := SendSellOrder(host, s, msg);
    assert sent.state.bank == burn.state;
    SafeBurnThenSafeMintRestores(host, s.bank, msg.port, msg.channelID, msg.creator, msg.amountDenom, msg.amount);
  }

  /**
    A sell order whose packet times out stays in custody: the timeout gives
    nothing back, so the seller remains debited the amount on sale.
   */
  lemma SendSellThenTimeoutKeepsCustody(host: Host, s: State, msg: MsgSendSellOrder, packet: Packet)
    requires SendSellOrder(host, s, msg).Ok?
    requires host.escrowAddress(msg.port, msg.channelID) != msg.creator
    ensures var sent := SendSellOrder(host, s, msg);
            var r := OnTimeoutSellOrderPacket(sent.state, packet, sent.value);
            && r.Ok?
            && Balance(r.state.bank, msg.creator, msg.amountDenom) == Balance(s.bank, msg.creator, msg.amountDenom) - msg.amount
  {
    var sent := SendSellOrder(host, s, msg);
    assert Debited(host, s.bank, sent.state.bank, msg.port, msg.channelID, msg.creator, Coin(msg.amountDenom, msg.amount));
  }

  /** The same for a buy order: its timeout leaves the buyer debited the order's amount. */
  lemma SendBuyThenTimeoutKeepsCustody(host: Host, s: State, msg: MsgSendBuyOrder, packet: Packet)
    requires SendBuyOrder(host, s, msg).Ok?
    requires host.escrowAddress(msg.port, msg.channelID) != msg.creator
    ensures var sent := SendBuyOrder(host, s, msg);
            var r := OnTimeoutBuyOrderPacket(sent.state, packet, sent.value);
            && r.Ok?
            && Balance(r.state.bank, msg.creator, msg.amountDenom) == Balance(s.bank, msg.creator, msg.amountDenom) - msg.amount
  {
    var sent := SendBuyOrder(host, s, msg);
    assert Debited(host, s.bank, sent.state.bank, msg.port, msg.channelID, msg.creator, Coin(msg.amountDenom, msg.amount));
  }

  /**
    As written, a buy order refused by the counterparty is not undone: the
    send took the order's amount, the error acknowledgement gives back its
    value (amount times price, in 32 bits). For a positive order whose value
    fits, the buyer ends where it started exactly when the price is 1.
   */
  lemma SendBuyThenErrorAckRefundsValue(host: Host, s: State, msg: MsgSendBuyOrder, packet: Packet, message: string)
    requires SendBuyOrder(host, s, msg).Ok?
    requires SentOn(packet, msg.port, msg.channelID)
    requires host.escrowAddress(msg.port, msg.channelID) != msg.creator
    ensures var sent := SendBuyOrder(host, s, msg);
            var r := OnAcknowledgementBuyOrderPacket(host, sent.state, packet, sent.value, AckError(message));
            && (r.Ok? ==>
                  Balance(r.state.bank, msg.creator, msg.amountDenom)
                    == Balance(s.bank, msg.creator, msg.amountDenom) - msg.amount + Wrap32(msg.amount * msg.price))
            && (r.Ok? && msg.amount > 0 && InRange(msg.amount * msg.price) ==>
                  ((Balance(r.state.bank, msg.creator, msg.amountDenom) == Balance(s.bank, msg.creator, msg.amountDenom))
                   <==> msg.price == 1))
            && (IsIBCToken(msg.amountDenom) && msg.amount > 0 && msg.price > 1 && InRange(msg.amount * msg.price) ==>
                  && r.Ok?
                  && Balance(r.state.bank, msg.creator, msg.amountDenom) > Balance(s.bank, msg.creator, msg.amountDenom))
  {
    var sent := SendBuyOrder(host, s, msg);
    var r := OnAcknowledgementBuyOrderPacket(host, sent.state, packet, sent.value, AckError(message));
    var debit := Coin(msg.amountDenom, msg.amount);
    assert Debited(host, s.bank, sent.state.bank, msg.port, msg.channelID, msg.creator, debit);
    if IsIBCToken(msg.amountDenom) && msg.amount > 0 && msg.price > 1 && InRange(msg.amount * msg.price) {
      OverRefund(msg.amount, msg.price);
    }
    if r.Ok? {
      var refund := Coin(msg.amountDenom, Wrap32(msg.amount * msg.price));
      assert Credited(host, sent.state.bank, r.state.bank, msg.port, msg.channelID, msg.creator, refund);
      if msg.amount > 0 && InRange(msg.amount * msg.price) {
        RefundIsDebitOnlyAtPriceOne(msg.amount, msg.price);
      }
    }
  }

  /** A positive amount at a price above 1 is worth more than the amount. */
  lemma OverRefund(amount: int, price: int)
    requires amount > 0 && price > 1
    ensures amount * price > amount
  {
    assert amount * price == amount + amount * (price - 1);
  }

  /** A positive amount times a price that fits equals the amount exactly when the price is 1. */
  lemma RefundIsDebitOnlyAtPriceOne(amount: int, price: int)
    requires amount > 0
    requires InRange(amount * price)
    ensures Wrap32(amount * price) == amount <==> price == 1
  {
    if amount * price == amount {
      assert amount * (price - 1) == 0;
    }
  }

  /**
    Refunding the debit undoes a refused buy order: with the error
    acknowledgement giving back the order's amount, every balance and the
    supply are as before the send, and no book changed.
   */
  lemma SendBuyThenErrorAckRefundingDebitRestores(host: Host, s: State, msg: MsgSendBuyOrder, packet: Packet, message: string)
    requires SendBuyOrder(host, s, msg).Ok?
    requires SentOn(packet, msg.port, msg.channelID)
    ensures var sent := SendBuyOrder(host, s, msg);
            var r := OnAcknowledgementBuyOrderPacketRefundingDebit(host, sent.state, packet, sent.value, AckError(message));
            && r.Ok?
            && SameHoldings(s.bank, r.state.bank)
            && r.state.buyOrderBooks == s.buyOrderBooks && r.state.sellOrderBooks == s.sellOrderBooks
  {
    var burn := SafeBurn(host, s.bank, msg.port, msg.channelID, msg.creator, msg.amountDenom, msg.amount);
    assert burn.Ok?;
    var sent := SendBuyOrder(host, s, msg);
    assert sent.state.bank == burn.state;
    SafeBurnThenSafeMintRestores(host, s.bank, msg.port, msg.channelID, msg.creator, msg.amountDenom, msg.amount);
  }
}

=== FILE: types.dfy ===
/**
  Records of the `x/dex` module: orders and books, denom traces, the IBC
  packet payloads and acknowledgements, the transaction messages, the
  error kinds the keeper returns, and the host collaborators the keeper
  consults but whose code is not part of this model.
 */
module Types {
  import opened Int32

  type Account = string
  type Denom = string

  /** A resting order (or an incoming one, whose id and creator are zero values). */
  datatype Order = Order(id: Int32, creator: Account, amount: Int32, price: Int32)

  /** Go's zero `Order{}`: what the liquidation step returns when nothing matched. */
  const ZeroOrder: Order := Order(0, "", 0, 0)

  /** The top of a book is its LAST element. */
  datatype OrderBook = OrderBook(idCount: Int32, orders: seq<Order>)

  datatype BuyOrderBook = BuyOrderBook(index: string, amountDenom: Denom, priceDenom: Denom, book: OrderBook)

  datatype SellOrderBook = SellOrderBook(index: string, amountDenom: Denom, priceDenom: Denom, book: OrderBook)

  datatype DenomTrace = DenomTrace(index: string, port: string, channel: string, origin: Denom)

  datatype SellOrderPacketData = SellOrderPacketData(
    amountDenom: Denom, amount: Int32, priceDenom: Denom, price: Int32, seller: Account)

  datatype BuyOrderPacketData = BuyOrderPacketData(
    amountDenom: Denom, amount: Int32, priceDenom: Denom, price: Int32, buyer: Account)

  datatype SellOrderPacketAck = SellOrderPacketAck(remainingAmount: Int32, gain: Int32)

  datatype BuyOrderPacketAck = BuyOrderPacketAck(remainingAmount: Int32, purchase: Int32)

  /** The channel endpoints an IBC packet travelled between. */
  datatype Packet = Packet(sourcePort: string, sourceChannel: string, destinationPort: string, destinationChannel: string)

  /** A decoded acknowledgement: the counterparty's error, or its result payload. */
  datatype Acknowledgement<T> = AckError(message: string) | AckResult(result: T)

  datatype MsgSendSellOrder = MsgSendSellOrder(
    creator: Account, port: string, channelID: string,
    amountDenom: Denom, amount: Int32, priceDenom: Denom, price: Int32)

  datatype MsgSendBuyOrder = MsgSendBuyOrder(
    creator: Account, port: string, channelID: string,
    amountDenom: Denom, amount: Int32, priceDenom: Denom, price: Int32)

  datatype MsgCancelBuyOrder = MsgCancelBuyOrder(
    creator: Account, port: string, channel: string,
    amountDenom: Denom, priceDenom: Denom, orderID: Int32)

  datatype MsgCancelSellOrder = MsgCancelSellOrder(
    creator: Account, port: string, channel: string,
    amountDenom: Denom, priceDenom: Denom, orderID: Int32)

  datatype Error =
    | PairNotFound        // "the pair doesn't exist"
    | InvalidAddress      // bech32 decoding of an account failed
    | InvalidPacket       // ValidateBasic rejected the packet data
    | InsufficientFunds   // the bank refused a transfer or a burn
    | OrderNotFound       // no order with the requested id
    | NotCreator          // "canceller must be creator"
    | InvalidOrder        // appendOrder rejected the amount or price

  /**
    What a keeper operation leaves behind: success with a value, an error
    together with the state reached when it was returned (the keeper does
    not undo earlier writes), or a panic, which ends the step.
   */
  datatype Outcome<S, T> = Ok(state: S, value: T) | Fail(state: S, error: Error) | Panic(reason: string)

  datatype Option<T> = None | Some(value: T)

  /** A hex-encoded SHA-256 digest. */
  type Digest = s: string | |s| == 64
    witness "0000000000000000000000000000000000000000000000000000000000000000"

  /**
    Collaborators outside the keeper, each left uninterpreted:
    the module account, ibc-transfer's escrow address for a (port, channel),
    the coin-denomination validation of `sdk.NewCoin`, the hash behind
    `DenomTrace.IBCDenom`, bech32 account decoding, the packets'
    `ValidateBasic`, `OrderBookIndex`, and the position at which
    `appendOrder` inserts a new order into a book.
   */
  datatype Host = Host(
    moduleAccount: Account,
    escrowAddress: (string, string) -> Account,
    validDenom: Denom -> bool,
    denomHash: string -> Digest,
    validAddress: Account -> bool,
    validSellPacket: SellOrderPacketData -> bool,
    validBuyPacket: BuyOrderPacketData -> bool,
    orderBookIndex: (string, string, Denom, Denom) -> string,
    insertPosition: (seq<Order>, Order) -> nat)

  /** `GetEscrowAddress` gives every (port, channel) its own account. */
  ghost predicate EscrowInjective(host: Host) {
    forall p1, c1, p2, c2 :: host.escrowAddress(p1, c1) == host.escrowAddress(p2, c2) ==> p1 == p2 && c1 == c2
  }
}
